=== FILE: README.md ===
# Stack-based language front end, modelled in Dafny

This project models the front end of a small stack-based language compiler. The front end is a pipeline of four pure stages:

1. **Tokenizer** (`Tokenizer`, tokenizer.dfy). It turns source text into `Token`s:
   - whitespace is skipped;
   - `$ : # @ ?` and the brackets `{ } [ ]` are one token each;
   - `;` starts a comment that runs to the end of the line;
   - string and char literals take a three-case escape table;
   - a greedy run of numeric characters becomes a numeric token;
   - anything else is an identifier that stops at whitespace or a bracket.
2. **Numeric literals** (`NumericLiterals`, numeric_literal.dfy). This stage decodes the literal text, covering:
   - the suffix grammar `d`, `b`, `f`/`i`/`u` plus an optional `u8` width;
   - the integer scientific form `aEb`;
   - the reverse rendering `to_string`.

   The helper module `Decimal` (decimal.dfy) models the parts of Rust's `str::parse` that the decoder calls (`u8`, `u64`, `i64`, and the syntax `f64` accepts), plus decimal rendering.
3. **Folding and the AST** (`Folding`, folding.dfy, and `Ast`, ast.dfy).
   - The flat token list is folded into nested `Square`/`Curly` groups.
   - The groups are then read as `ASTNode`s.
   - The top level is read as `@name value` word declarations and `?name [..]` typings.
4. **Name map** (`NameMaps`, namemap.dfy). Each word declaration is classified as one of:
   - a `Word`, with the list of names it depends on;
   - an alias;
   - a constant.

   The results are gathered in a map from the declared name.

The module `Outcomes` (outcome.dfy) gives every stage the same result type, `Outcome<T>`, with three cases:
- `Ok`;
- `Err`, an `anyhow` error raised by `bail!` or `?`;
- `Panic`, raised by `panic!`, `todo!()` or a debug-build arithmetic overflow.

Both failures keep their Rust message text, and a failure is propagated with its kind unchanged.

The model follows the code, including its rough edges:
- An unclosed bracket is closed silently at the end of input.
- A char literal never checks its closing quote.
- Comments are dropped while folding.
- `depends_on` keeps duplicates.
- A char literal `c` becomes `Uint(c as u8, 8)`: the character code goes into the width field and 8 into the value field.
- The integer arithmetic of `a * 10^b` is done as in a debug build. `b as u32` truncates modulo 2^32. An overflow of the power or of the product panics.

Every stage is stated as a function, with its properties as contracts and lemmas. The key results are:
- `Tokenizer.PrintRoundTrip`: tokenizing a rendered token list gives it back.
- `NumericLiterals.FromStrToString`: every non-float literal reads back from its own rendering.
- `Folding.FoldOfNested`: folding a flattened tree gives the tree back, with comments ignored.
- `Folding.FoldStreamPanics`: folding panics exactly on a stray close bracket.
- `Ast.BuildTreeRoundTrip`: building the tree of a flattened declaration list gives the list back.
- `NameMaps.ExtractNameMapSpec`: when the name map succeeds, and what it contains then.

## Model

| member | source | states |
|---|---|---|
| Outcomes.PrependTwice | src/tokenizer.rs:120-143 | pushing two token lists onto a result equals pushing their concatenation; a failure passes through unchanged |
| Decimal.ParseUnsigned | src/numeric_litteral.rs:21-23 | `parse::<u64>` (and `u8`) never panics; it succeeds exactly when the text is an optional `+` followed by at least one digit and the value is below the type's limit, and the result is that value |
| Decimal.ParseSigned | src/numeric_litteral.rs:17-19 | `parse::<i64>` never panics; it succeeds exactly when the text is an optional `+` or `-` followed by at least one digit and the signed value is in the type's range, and the result is that value; a negative value needs a leading `-` |
| Decimal.ParseU8 | src/numeric_litteral.rs:92 | `volume.parse::<u8>()` never panics; it succeeds exactly on an optional `+` followed by at least one digit whose value is below 256, and then gives that value |
| Decimal.ParseU64 | src/numeric_litteral.rs:21-23 | `s.parse::<u64>()` never panics; it succeeds exactly on an optional `+` followed by at least one digit whose value is below 2^64, and then gives that value |
| Decimal.ParseI64 | src/numeric_litteral.rs:17-19 | `s.parse::<i64>()` never panics; it succeeds exactly on an optional `+` or `-` followed by at least one digit whose signed value is in the `i64` range, and then gives that value |
| Decimal.ParseUnsignedRoundTrip | src/numeric_litteral.rs:21-23 | every unsigned value below the limit is read back from its decimal rendering |
| Decimal.ParseSignedRoundTrip | src/numeric_litteral.rs:17-19 | every signed value in range is read back from its decimal rendering |
| Decimal.ParseUnsignedRejectsMinus | src/numeric_litteral.rs:21-23 | unsigned parsing rejects a leading minus sign with an error |
| Decimal.NatToStringValue | src/numeric_litteral.rs:127-130 | the digits that `{}` prints for a number have that number as their value |
| Decimal.IndexOf | src/numeric_litteral.rs:35 | the split point of `split_once('E')` is the first `E`, or the end of the text when there is none |
| Decimal.IndexOfAt | src/numeric_litteral.rs:35 | in `x E y`, where `x` has no `E`, the split falls just after `x` |
| Tokenizer.EscapeChar | src/tokenizer.rs:22-34 | `\n` and a backslash before a line break yield LF, `\r` yields CR; any other escaped character, or end of input, panics; it is never an error |
| Tokenizer.NumericTokenize | src/tokenizer.rs:36-45 | a numeric token is non-empty, holds only `0-9 - . E d b f i u`, and is maximal; token text plus the remaining input is the input |
| Tokenizer.IdentTokenize | src/tokenizer.rs:76-90 | an identifier is non-empty and free of whitespace and brackets, and it ends just before the first whitespace or bracket; sigils stay inside it |
| Tokenizer.CommentTokenize | src/tokenizer.rs:92-103 | a comment's text starts with its `;`, holds no newline, and stops at the next newline or end of input |
| Tokenizer.StringBody | src/tokenizer.rs:63-71 | the body loop never returns an error; on success its text holds no `"` and it stops at the first unescaped `"`, leaving that quote and what follows |
| Tokenizer.StringTokenize | src/tokenizer.rs:59-74 | a string literal is never an error; on success its text has no `"` and the closing quote is the next character left |
| Tokenizer.CharTokenize | src/tokenizer.rs:47-57 | a char literal panics exactly at end of input or on a bad escape; otherwise it is one character, and one more character is skipped unchecked |
| Tokenizer.Step | src/tokenizer.rs:109-146 | every loop iteration consumes at least one character and never fails with an error; it yields no token exactly on whitespace, and at most one token otherwise |
| Tokenizer.Tokenize | src/tokenizer.rs:105-149 | `tokenizer` never returns an error, only `Ok` or a panic; every token it returns is well formed |
| Tokenizer.TokenizeByStep | src/tokenizer.rs:109-146 | the tokens of the input are those of the first iteration followed by those of the remaining input |
| Tokenizer.TokenizeSkipsWhitespace | src/tokenizer.rs:110-111 | a whitespace character yields no token |
| Tokenizer.TokenizeSingleChar | src/tokenizer.rs:120-130 | each sigil and bracket character yields exactly its own token (`SingleCharToken`), with the right open/close flag |
| Tokenizer.TokenizeNumber | src/tokenizer.rs:135-138 | a maximal run of numeric characters starting with a digit or `-` yields one numeric token |
| Tokenizer.TokenizeIdent | src/tokenizer.rs:139-142 | a maximal run of identifier characters yields one identifier token |
| Tokenizer.TokenizeComment | src/tokenizer.rs:92-103 | a comment runs to the end of input, or to the next newline, and yields one comment token |
| Tokenizer.TokenizeCommentAtEnd | src/tokenizer.rs:92-103 | a comment at the end of input is the only token it yields |
| Tokenizer.TokenizeCommentLine | src/tokenizer.rs:92-103 | a comment line yields one comment token, after which tokenizing resumes on the next line |
| Tokenizer.EscapeTextAppend | src/tokenizer.rs:63-71 | escaping a string body, the inverse of reading it, works character by character |
| Tokenizer.EscapeTextPlain | src/tokenizer.rs:63-71 | text with no line break is written unescaped |
| Tokenizer.StringBodyOneChar | src/tokenizer.rs:63-71 | any character other than `"` and `\`, written as the printer writes it (a line break or carriage return as `\n` or `\r`), reads back as itself |
| Tokenizer.StringBodyPlainChar | src/tokenizer.rs:63-71 | any raw character other than `"` and `\`, a raw line break included, is copied unchanged into the string body |
| Tokenizer.StringBodyOfEscaped | src/tokenizer.rs:59-74 | reading the escaped form of any body without quotes or backslashes gives that body back and stops at the closing quote |
| Tokenizer.StringBodyEscape | src/tokenizer.rs:22-27 | inside a string, `\n`, `\r` and a backslash before a line break put LF, CR and LF in front of what the rest of the body reads as |
| Tokenizer.TokenizeStringLineBreak | src/tokenizer.rs:59-74 | a string opening with a backslash before a line break yields one string literal starting with LF, followed by the rest of the body |
| Tokenizer.TokenizeString | src/tokenizer.rs:59-74 | a quoted, escaped body yields one string literal holding the body, and the closing quote is consumed |
| Tokenizer.TokenizeChar | src/tokenizer.rs:47-57 | `'c` followed by any character yields `CharLiteral(c)`, and that third character is skipped whatever it is |
| Tokenizer.TokenizeEscapedChar | src/tokenizer.rs:22-27 | `'\n`, `'\r` and a backslash-newline in a char literal yield LF, CR and LF |
| Tokenizer.StringBodyUnterminated | src/tokenizer.rs:68 | a string body without a closing quote panics |
| Tokenizer.TokenizePanicsWithStep | src/tokenizer.rs:109-146 | a panic in any loop iteration is a panic of the whole tokenizer |
| Tokenizer.TokenizeUnterminatedString | src/tokenizer.rs:59-74 | an unterminated string panics rather than returning an error |
| Tokenizer.TokenizeBadEscape | src/tokenizer.rs:28-32 | an unknown escape, or an escape at end of input, panics in both strings and chars |
| Tokenizer.TokenizeCharAtEnd | src/tokenizer.rs:53 | a char literal at end of input panics |
| Tokenizer.TokenizeRender | src/tokenizer.rs:105-149 | every printable token is read back from its rendering, whatever follows it |
| Tokenizer.PrintRoundTrip | src/tokenizer.rs:105-149 | tokenizing the rendering of any list of printable tokens gives the list back |
| Tokenizer.TokenizeGap | src/tokenizer.rs:110-111 | any run of whitespace yields no token, whatever follows it |
| Tokenizer.TokenizeTight | src/tokenizer.rs:105-149 | a printable token written with no trailing space lexes as itself when the next character cannot extend it (for a comment: a line break or end of input) |
| Tokenizer.LayoutRoundTrip | src/tokenizer.rs:105-149 | any program written as printable tokens with arbitrary whitespace between them, and none only where tokens cannot run together, lexes to exactly those tokens |
| Tokenizer.TokenizeLineString | src/tokenizer.rs:59-74 | `"x\n"` yields the string literal `x` followed by a line feed |
| Tokenizer.EscapeCharsInStrings | src/tokenizer.rs:155-174 | two such strings yield two string literals, each ending in a line feed |
| Tokenizer.EscapeCharsInChars | src/tokenizer.rs:176-195 | `'\n''\n'` yields two `CharLiteral('\n')` |
| NumericLiterals.AsI32 | src/numeric_litteral.rs:29 | `b as i32` lies in the `i32` range, differs from `b` by a multiple of 2^32, and so keeps every value already in it |
| NumericLiterals.ScaleU | src/numeric_litteral.rs:38 | `a * 10u64.pow(e)` succeeds exactly when neither the power nor the product overflows, and then equals `a * 10^e`; an overflow panics and is never an error |
| NumericLiterals.ScaleI | src/numeric_litteral.rs:47 | `a * 10i64.pow(e)` succeeds exactly when neither the power nor the product overflows, and then equals `a * 10^e`; an overflow panics |
| NumericLiterals.ParseU | src/numeric_litteral.rs:34-42 | the unsigned body is an error exactly when the text, or either side of its first `E`, fails to parse; a panic needs an `E` |
| NumericLiterals.ParseI | src/numeric_litteral.rs:43-51 | the signed body is an error exactly when the text, the signed mantissa or the unsigned exponent fails to parse; a panic needs an `E` |
| NumericLiterals.ParseF | src/numeric_litteral.rs:25-33 | the float body never panics; it succeeds exactly when the mantissa is `f64` text and any exponent after the first `E` is an `i64` |
| NumericLiterals.FirstSignature | src/numeric_litteral.rs:66-79 | the loop stops at the first of `d b f i u`; everything before it is base text |
| NumericLiterals.SplitSuffix | src/numeric_litteral.rs:58-97 | splitting never panics; the base is a prefix of the input free of signature characters; the signature is one `from_str` handles |
| NumericLiterals.ExtractSignatureAndVolumeAndBase | src/numeric_litteral.rs:58-97 | the character loop computes the same split as the reference definition, including the width error |
| NumericLiterals.FromStr | src/numeric_litteral.rs:102-119 | decoding can panic only when the text contains an `E`, so the `Unimplemented literal` arm is unreachable |
| NumericLiterals.ToString | src/numeric_litteral.rs:122-135 | the rendering of a non-float literal always contains a signature character |
| NumericLiterals.PlainNumber | src/numeric_litteral.rs:127-130 | a printed number contains no signature character and no `E` |
| NumericLiterals.FromStrNoSuffix | src/numeric_litteral.rs:95-110 | text without `d b f i u` decodes as `SysInt` of the whole text |
| NumericLiterals.FromStrBoolean | src/numeric_litteral.rs:72-111 | a `b` before any `f`/`i`/`u` gives `Boolean(prefix != "0")`, and everything after the `b` is ignored |
| NumericLiterals.FromStrDouble | src/numeric_litteral.rs:71-115 | a `d` before any `f`/`i`/`u` gives a 64-bit `Float` of the prefix, and everything after the `d` is ignored |
| NumericLiterals.FromStrNoWidth | src/numeric_litteral.rs:82-115 | a bare `u`, `i` or `f` gives `SysUint`, `SysInt` or a 32-bit `Float` |
| NumericLiterals.FromStrWidth | src/numeric_litteral.rs:82-115 | text after `u`/`i`/`f` is the width: a width that is not a `u8` is an error; otherwise it is stored in `Uint`, `Int` or `Float` |
| NumericLiterals.ParseUOfNumber | src/numeric_litteral.rs:34-42 | every `u64` is read back from its decimal rendering |
| NumericLiterals.ParseIOfNumber | src/numeric_litteral.rs:43-51 | every `i64` is read back from its decimal rendering |
| NumericLiterals.ParseUScientific | src/numeric_litteral.rs:34-42 | `aEb` reads as `a * 10^(b as u32)`, including the overflow panic |
| NumericLiterals.ParseIScientific | src/numeric_litteral.rs:43-51 | signed `aEb` reads as `a * 10^(b as u32)`, including the overflow panic |
| NumericLiterals.NegativeExponent | src/numeric_litteral.rs:34-51 | a negative exponent is an error for both unsigned and signed bodies |
| NumericLiterals.FromStrToString | src/numeric_litteral.rs:99-135 | every non-float literal decodes from its own rendering back to itself |
| NumericLiterals.FromStrScientific | src/numeric_litteral.rs:43-51 | `aEb` with or without an `i` suffix decodes as `SysInt(a * 10^b)`, or panics on overflow; for example `2E3i` gives `SysInt(2000)` |
| Folding.LeafOf | src/ast.rs:80-89 | a leaf token maps to a leaf node, never a group |
| Folding.TokenOf | src/ast.rs:80-89 | every leaf node is made by some leaf token: `LeafOf(TokenOf(n)) == n` |
| Folding.LeafTokenRoundTrip | src/ast.rs:80-89 | a leaf token is recovered from its node, so no two leaf tokens make the same node; together with `TokenOf` the mapping is one-for-one |
| Folding.Fold | src/ast.rs:68-121 | folding never returns an error; it never consumes more than its input; at top level it consumes everything |
| Folding.FoldStream | src/ast.rs:122-150 | `fold_stream` never returns an error, only a result or a panic |
| Folding.FoldFlatten | src/ast.rs:68-121 | folding the flattening of any tree, followed by the scope's own close bracket or by nothing, gives the tree and the input after that bracket |
| Folding.FoldStreamFlatten | src/ast.rs:122-150 | `fold_stream` of a flattened tree gives the tree back |
| Folding.FoldFlattenThen | src/ast.rs:68-121 | a properly nested forest in front of any input folds to that forest followed by what the input folds to, and to the input's failure if it fails |
| Folding.FoldNodeThen | src/ast.rs:68-121 | the same for one written node, leaf or group |
| Folding.NeverClosed | src/ast.rs:68-121 | input with no stray close bracket folds in any scope as at top level: no close bracket ever ends the scope |
| Folding.UnclosedGroup | src/ast.rs:68-121 | after any properly nested prefix, an open bracket never closed by what follows is closed at end of input: the prefix keeps its nodes, and the group takes the fold of all the remaining tokens, nested unclosed brackets included |
| Folding.UnclosedAfter | src/ast.rs:68-121 | the same for either kind of open bracket, with the remainder's fold given |
| Folding.FoldIgnoresComments | src/ast.rs:68-121 | folding with comments removed gives the same nodes, and the same failure, as folding with them |
| Folding.FoldOfNested | src/ast.rs:122-150 | input that is properly nested once comments are removed folds to exactly the tree it flattens from |
| Folding.FoldKeepsLeaves | src/ast.rs:68-121 | the leaves of the fold, in order, are the non-comment leaf tokens it consumed, one for one |
| Folding.FoldPanicsOnStrayClose | src/ast.rs:68-121 | a fold panics exactly when a close bracket meets no matching open bracket |
| Folding.FoldStreamPanics | src/ast.rs:122-150 | `fold_stream` panics exactly when the input has a stray close bracket: one at top level, or one of the wrong kind inside a group |
| Ast.NewNode | src/ast.rs:155-205 | a successful read consumes at least one node |
| Ast.NewDeclaration | src/ast.rs:192-197 | reading a declaration consumes no more than it is given |
| Ast.NewNodeFailures | src/ast.rs:191-203 | an empty stream is an error; `$ # @ ?` in expression position panic |
| Ast.NewNodeColon | src/ast.rs:192-197 | `: : name` gives `Dec(name)` and consumes exactly three nodes; any other pair after the first `:` is an error, never a panic |
| Ast.NewNodeChar | src/ast.rs:186-188 | a char literal `c` gives `Uint(c as u8, 8)`, with the char code in the width field and 8 in the value field |
| Ast.NewNodeGroup | src/ast.rs:158-179 | a group converts all its children, or fails as its first failing child does |
| Ast.BuildTopFailures | src/ast.rs:221-238 | an `@` without a name is an error; a `?` without a name and `[..]` is an error; a well-formed `?` panics; any other node panics |
| Ast.NewNodeUnparse | src/ast.rs:155-205 | every expressible AST node is read back from its written-out form, whatever follows |
| Ast.NewNodesUnparse | src/ast.rs:159-165 | the children loop (`NewNodes`) reads back any written-out list of nodes |
| Ast.NewNodesFirstFailure | src/ast.rs:163-165 | the children loop (`NewNodes`) stops at the first failing child, keeping its kind |
| Ast.BuildTopWord | src/ast.rs:230-233 | `@ name value` gives `WordDeclare(name, value)`, after which reading resumes on the rest |
| Ast.BuildTopUnparse | src/ast.rs:221-241 | the top-level loop (`BuildTop`) reads back every list of word declarations from its written-out form |
| Ast.BuildTreeRoundTrip | src/ast.rs:215-242 | `build_tree` (`BuildTree`, folding then the top-level loop) of the flattened form of a declaration list gives the list back |
| NameMaps.Classify | src/namemap.rs:30-48 | classifying never panics; `{a}` gives `Word(a, DependsOn(a))` with the body unchanged, an identifier gives `AliasedWord`, a numeric literal `NumericConst`, a string `StringConst`, each with the same payload; any other shape is an error |
| NameMaps.DependsOnAppend | src/namemap.rs:32-38 | `depends_on` (`DependsOn`) works child by child, in order, so the dependencies of a concatenation are the concatenation of the dependencies |
| NameMaps.DependsOnMembership | src/namemap.rs:34-38 | a name is a dependency exactly when a direct child is that identifier |
| NameMaps.InsertAllSpec | src/namemap.rs:26-55 | the loop (`InsertAll`) succeeds exactly on well-declared input with no name already in the map; it then adds one entry per declaration and keeps the earlier entries |
| NameMaps.InsertAllAppend | src/namemap.rs:26-55 | the loop over two lists is the loop over the first, continued from the map it built; a failure in the first list is the result |
| NameMaps.ExtractNameMapSpec | src/namemap.rs:23-58 | `extract_name_map` (`ExtractNameMap`) succeeds exactly when every declaration is a word with a known value shape and no name repeats; its keys are then the declared names, each mapped to the classification of its own value |
| NameMaps.DuplicatePanics | src/namemap.rs:49-51 | from any map, a declaration whose name is already present is a `todo!` panic and never silently overwrites |
| NameMaps.BadValueIsError | src/namemap.rs:47 | from any map, a declaration whose value has any other shape is an error |
| NameMaps.TypingPanics | src/namemap.rs:53 | from any map, a typing declaration is a `todo!` panic |
| NameMaps.FirstFailure | src/namemap.rs:26-55 | after any well-declared prefix, a typing declaration or a name declared earlier makes the whole map a panic, and a value of unknown shape makes it an error |
| Ast.ExpFoldTokens | src/ast.rs:251-255 | the tokens of `exp_fold`'s program fold to `?`, `main`, an empty square group, `@`, `main` and a curly group of the string and `.` |
| Ast.ExtractTopLevelTokens | src/ast.rs:258-264 | the tokens of `exp_extract_top_level`'s program build, as the test's `unwrap` expects, `main` as a curly body of `1b`, the nested group and `if`, and `other` as `main` |
| NameMaps.HelloWorldNameMap | src/namemap.rs:65-72 | the test's `@main { "Hello world!" . }` maps `main` to a word with that body, depending on `.` only |
| NameMaps.HelloWorldFromTokens | src/namemap.rs:65-72 | the tokens of the test's program, trailing comment included, build that one declaration and then map as above, so both `unwrap`s after the tokenizer succeed |

## Left out

- src/repl.rs, src/compiler.rs and src/main.rs: these are terminal I/O, LLVM setup and the entry point, and are not part of this model.
- `f64` values are left out, because floating point is not modelled:
  - a float literal's payload is opaque, as its mantissa text and its `i32` exponent;
  - `s.parse::<f64>()` is modelled only as the syntax it accepts;
  - the product `a * 10f64.powi(b)` is not computed.
- NumericLiterals.ToString: the `Float` arm (`format!("{}f{}", n, size)`) is left out, because printing an `f64` is floating point. The function requires a non-float literal.
- NumericLiterals.FromStrToString: states the round trip for non-float literals only, for the same reason.
- The typing layer is not modelled; it is unfinished:
  - `parse_types` and `parse_type_component` are `todo!()`. A well-formed `?name [..]` therefore panics, and the model panics at that point.
  - `TypingASTNode` and `TypeComponent` are not modelled, so `Typing` carries only its name and `DecTyped` only its variable.
  - The `sbl_expr` macros have no body.
- The text of `anyhow` messages is kept for reference, but no lemma relies on it; only the `Err`/`Panic` split matters.
- Integer arithmetic follows a debug build: an overflow in `a * 10^b` panics. A release build would wrap instead, and that is not modelled.
- `char::is_whitespace` is spelled out as the Unicode `White_Space` set. Characters are Dafny `char`s. No encoding of the input is modelled.
- The exploratory tests:
  - `exp_0` to `exp_3` in src/tokenizer.rs only print, and have no expected value.
  - `exp_fold` and `exp_extract_top_level` in src/ast.rs and the map test in src/namemap.rs `unwrap` their stages, so they expect the tokenizer, and where called `build_tree` and `extract_name_map`, to succeed. From the tokens on this is stated as Ast.ExpFoldTokens, Ast.ExtractTopLevelTokens and NameMaps.HelloWorldFromTokens.
  - That the tokenizer gives those tokens for the tests' literal program texts is not stated for those texts. Tokenizer.LayoutRoundTrip states it for every program laid out from printable tokens and whitespace; the three texts themselves are not evaluated.
- Output is not modelled: the `println!` of the offending character before the bad-escape `todo!()` (src/tokenizer.rs:29) and the tests' printing have no counterpart; only the panic is modelled.
- Tokenizer.EscapeCharsInStrings: the test's input `"Hello world!\n"` twice is stated for every pair of bodies of that shape, rather than for that one literal text. Tokenizer.EscapeCharsInChars keeps the test's literal input.

=== FILE: ast.dfy ===
/** The AST builder of src/ast.rs: `ASTNode::new` reads one expression from
    a stream of folded nodes, and `build_tree` reads the top-level
    declarations `@name value` and `?name [types]`. The Rust code reads from a
    peekable iterator; here each reader takes the remaining stream and returns
    what it built together with the stream it left. */
module Ast {
  import opened Outcomes
  import Tokenizer
  import NumericLiterals
  import Folding

  type FoldedStreamNode = Folding.FoldedStreamNode

  /** `ASTNode`. The declaration forms after `Dec` are declared by the
      source but never built by it; `DecTyped` drops its type component,
      which belongs to the unfinished typing layer. */
  datatype ASTNode =
    | Curly(children: seq<ASTNode>)
    | Square(children: seq<ASTNode>)
    | Ident(name: string)
    | NumericLiteral(literal: NumericLiterals.NumericLiteral)
    | StringLiteral(text: string)
    | Dec(name: string)
    | DecArraySized(name: string, size: NumericLiterals.NumericLiteral)
    | DecTyped(name: string)
    | DecArrayVariable(name: string)
    | DecPointer(name: string)
    | PointerAssign(name: string)
    | Assign(name: string)
    | IndexAssign(name: string)
    | Address(name: string)
    | ReadAddress(name: string)

  /** `TopLevelNode`. A `Typing` declaration is never built (its parser is
      `todo!()`), so its list of typing nodes is left out too. */
  datatype TopLevelNode = WordDeclare(name: string, value: ASTNode) | Typing(name: string)

  function Size(ns: seq<FoldedStreamNode>): nat {
    Folding.Size(ns)
  }

  /** Dropping the first node of a stream makes it smaller. */
  lemma SizeTail(ns: seq<FoldedStreamNode>)
    requires ns != []
    ensures Size(ns[1..]) < Size(ns)
    ensures ns[0].Square? || ns[0].Curly? ==> Size(ns[0].children) < Size(ns)
  {
    assert Folding.Size(ns) == Folding.NodeSize(ns[0]) + Folding.Size(ns[1..]);
  }

  /** `ASTNode::new`: the first node of the stream decides the form. A group
      converts all of its children; `: : name` declares `name`; the sigils
      `$ # @ ?` are not implemented. */
  function NewNode(ns: seq<FoldedStreamNode>): (r: Outcome<(ASTNode, seq<FoldedStreamNode>)>)
    ensures r.Ok? ==> |r.value.1| < |ns| && Size(r.value.1) < Size(ns)
    decreases Size(ns), 0
  {
    if ns == [] then Err("Token stream empty at EOF")
    else
      SizeTail(ns);
      var rest := ns[1..];
      match ns[0]
      case Square(cs) =>
        var xs :- NewNodes(cs);
        Ok((Square(xs), rest))
      case Curly(cs) =>
        var xs :- NewNodes(cs);
        Ok((Curly(xs), rest))
      case Ident(x) => Ok((Ident(x), rest))
      case NumericLiteral(x) =>
        var v :- NumericLiterals.FromStr(x);
        Ok((NumericLiteral(v), rest))
      case CharLiteral(c) =>
        // `char as u8` keeps the low eight bits, and lands in the width field.
        Ok((NumericLiteral(NumericLiterals.Uint(c as int % 0x100, 8)), rest))
      case StringLiteral(s) => Ok((StringLiteral(s), rest))
      case Dollar => Panic("not yet implemented")
      case Colon => NewDeclaration(rest)
      case Octothorp => Panic("not yet implemented")
      case AtSign => Panic("not yet implemented")
      case QMark => Panic("not yet implemented")
  }

  /** The rest of `: : name` after its first colon. */
  function NewDeclaration(rest: seq<FoldedStreamNode>): (r: Outcome<(ASTNode, seq<FoldedStreamNode>)>)
    ensures r.Ok? ==> |r.value.1| <= |rest| && Size(r.value.1) <= Size(rest)
  {
    if |rest| >= 2 && rest[0].Colon? && rest[1].Ident? then
      SizeTail(rest);
      SizeTail(rest[1..]);
      assert rest[1..][1..] == rest[2..];
      Ok((Dec(rest[1].name), rest[2..]))
    else Err("Unexpected token or EOF")
  }

  /** The loop over a group's children: read expressions until the children
      run out, stopping at the first failure. */
  function NewNodes(ns: seq<FoldedStreamNode>): (r: Outcome<seq<ASTNode>>)
    decreases Size(ns), 1
  {
    if ns == [] then Ok([])
    else
      var first :- NewNode(ns);
      var more :- NewNodes(first.1);
      Ok([first.0] + more)
  }

  /** The loop of `build_tree` over the folded stream: `@ name value` is a
      word declaration, `? name [..]` a typing declaration, and anything else
      at top level is a panic. */
  function BuildTop(ns: seq<FoldedStreamNode>): (r: Outcome<seq<TopLevelNode>>)
    decreases |ns|
  {
    if ns == [] then Ok([])
    else
      var rest := ns[1..];
      match ns[0]
      case QMark =>
        // A well-formed typing declaration reaches `parse_types`, which is
        // `todo!()`.
        if |rest| >= 2 && rest[0].Ident? && rest[1].Square? then Panic("not yet implemented")
        else Err("Typing must be followed by ident and bracket")
      case AtSign =>
        if |rest| >= 1 && rest[0].Ident? then
          var value :- NewNode(rest[1..]);
          var more :- BuildTop(value.1);
          Ok([WordDeclare(rest[0].name, value.0)] + more)
        else Err("Word deceleration must be followed by ident")
      case _ => Panic("Invalid top-level deceleration")
  }

  /** `build_tree`: fold the brackets, then read the declarations. */
  function BuildTree(ts: seq<Tokenizer.Token>): (r: Outcome<seq<TopLevelNode>>) {
    var ns :- Folding.FoldStream(ts);
    BuildTop(ns)
  }

  // ----- the forms of ASTNode::new and build_tree -----

  /** An empty stream is an error; `$ # @ ?` in expression position are
      panics. */
  lemma NewNodeFailures(rest: seq<FoldedStreamNode>)
    ensures NewNode([]).Err?
    ensures NewNode([Folding.Dollar] + rest).Panic?
    ensures NewNode([Folding.Octothorp] + rest).Panic?
    ensures NewNode([Folding.AtSign] + rest).Panic?
    ensures NewNode([Folding.QMark] + rest).Panic?
  {
  }

  /** `:` must be followed by `:` and a name, and then declares the name,
      consuming exactly three nodes; any other continuation is an error. */
  lemma NewNodeColon(rest: seq<FoldedStreamNode>)
    ensures NewNode([Folding.Colon] + rest).Ok? <==> |rest| >= 2 && rest[0].Colon? && rest[1].Ident?
    ensures NewNode([Folding.Colon] + rest).Ok? ==>
      NewNode([Folding.Colon] + rest).value == (Dec(rest[1].name), rest[2..])
    ensures !NewNode([Folding.Colon] + rest).Panic?
  {
    var ns := [Folding.Colon] + rest;
    assert ns[0] == Folding.Colon && ns[1..] == rest;
    assert NewNode(ns) == NewDeclaration(rest);
  }

  /** A char literal becomes an unsigned literal whose width field holds the
      character's low eight bits and whose value is 8. */
  lemma NewNodeChar(c: char, rest: seq<FoldedStreamNode>)
    ensures NewNode([Folding.CharLiteral(c)] + rest).Ok?
    ensures var r := NewNode([Folding.CharLiteral(c)] + rest).value;
      r.1 == rest && r.0.NumericLiteral? && r.0.literal.Uint?
      && r.0.literal.width == c as int % 0x100 && r.0.literal.uvalue == 8
  {
    assert ([Folding.CharLiteral(c)] + rest)[1..] == rest;
  }

  /** A group converts all of its children, or fails as the first child
      that fails. */
  lemma NewNodeGroup(cs: seq<FoldedStreamNode>, rest: seq<FoldedStreamNode>)
    ensures NewNode([Folding.Square(cs)] + rest) == MapOk(NewNodes(cs), xs => (Square(xs), rest))
    ensures NewNode([Folding.Curly(cs)] + rest) == MapOk(NewNodes(cs), xs => (Curly(xs), rest))
  {
    assert ([Folding.Square(cs)] + rest)[1..] == rest;
    assert ([Folding.Curly(cs)] + rest)[1..] == rest;
  }

  /** At top level, `@` needs a name after it, `?` needs a name and a
      square group and then reaches the unimplemented type parser, and any
      other node is a panic. */
  lemma BuildTopFailures(n: FoldedStreamNode, rest: seq<FoldedStreamNode>)
    ensures n.AtSign? && (rest == [] || !rest[0].Ident?) ==> BuildTop([n] + rest).Err?
    ensures n.QMark? && |rest| >= 2 && rest[0].Ident? && rest[1].Square? ==> BuildTop([n] + rest).Panic?
    ensures n.QMark? && !(|rest| >= 2 && rest[0].Ident? && rest[1].Square?) ==> BuildTop([n] + rest).Err?
    ensures !n.AtSign? && !n.QMark? ==> BuildTop([n] + rest).Panic?
  {
    assert ([n] + rest)[1..] == rest;
  }

  // ----- writing an AST back as folded nodes -----

  /** The AST nodes that can be written back as folded nodes and read again;
      a float literal cannot, since its text is not kept. */
  predicate Expressible(x: ASTNode) {
    match x
    case Curly(cs) => forall i | 0 <= i < |cs| :: Expressible(cs[i])
    case Square(cs) => forall i | 0 <= i < |cs| :: Expressible(cs[i])
    case Ident(_) => true
    case NumericLiteral(v) => !v.Float?
    case StringLiteral(_) => true
    case Dec(_) => true
    case _ => false
  }

  function NodeCount(x: ASTNode): (k: nat)
    ensures k >= 1
  {
    match x
    case Curly(cs) => 1 + Count(cs)
    case Square(cs) => 1 + Count(cs)
    case _ => 1
  }

  function Count(xs: seq<ASTNode>): nat {
    if xs == [] then 0 else NodeCount(xs[0]) + Count(xs[1..])
  }

  /** Folded nodes that `ASTNode::new` reads as `x`. */
  function Unparse(x: ASTNode): seq<FoldedStreamNode>
    requires Expressible(x)
    decreases NodeCount(x), 0
  {
    match x
    case Curly(cs) => [Folding.Curly(UnparseAll(cs))]
    case Square(cs) => [Folding.Square(UnparseAll(cs))]
    case Ident(n) => [Folding.Ident(n)]
    case NumericLiteral(v) => [Folding.NumericLiteral(NumericLiterals.ToString(v))]
    case StringLiteral(s) => [Folding.StringLiteral(s)]
    case Dec(n) => [Folding.Colon, Folding.Colon, Folding.Ident(n)]
  }

  function UnparseAll(xs: seq<ASTNode>): seq<FoldedStreamNode>
    requires forall i | 0 <= i < |xs| :: Expressible(xs[i])
    decreases Count(xs), 1
  {
    if xs == [] then [] else Unparse(xs[0]) + UnparseAll(xs[1..])
  }

  /** `ASTNode::new` reads back exactly one written node and leaves the rest
      of the stream alone. */
  lemma {:induction false} NewNodeUnparse(x: ASTNode, rest: seq<FoldedStreamNode>)
    requires Expressible(x)
    ensures NewNode(Unparse(x) + rest) == Ok((x, rest))
    decreases NodeCount(x), 0
  {
    var ns := Unparse(x) + rest;
    match x
    case Curly(cs) =>
      NewNodesUnparse(cs);
      NewNodeGroup(UnparseAll(cs), rest);
    case Square(cs) =>
      NewNodesUnparse(cs);
      NewNodeGroup(UnparseAll(cs), rest);
    case NumericLiteral(v) =>
      NumericLiterals.FromStrToString(v);
      assert ns[0] == Folding.NumericLiteral(NumericLiterals.ToString(v)) && ns[1..] == rest;
    case Dec(n) =>
      assert ns[1..][2..] == rest;
    case Ident(n) =>
      assert ns[1..] == rest;
    case StringLiteral(s) =>
      assert ns[1..] == rest;
    case _ =>
      assert false;
  }

  /** The children loop reads back a written sequence of nodes. */
  lemma {:induction false} NewNodesUnparse(xs: seq<ASTNode>)
    requires forall i | 0 <= i < |xs| :: Expressible(xs[i])
    ensures NewNodes(UnparseAll(xs)) == Ok(xs)
    decreases Count(xs), 1
  {
    if xs != [] {
      NewNodeUnparse(xs[0], UnparseAll(xs[1..]));
      NewNodesUnparse(xs[1..]);
      assert [xs[0]] + xs[1..] == xs;
    }
  }

  /** Converting children stops at the first child that fails: children
      that convert before it make no difference. */
  lemma {:induction false} NewNodesFirstFailure(xs: seq<ASTNode>, bad: seq<FoldedStreamNode>)
    requires forall i | 0 <= i < |xs| :: Expressible(xs[i])
    requires bad != [] && NewNode(bad).IsFailure()
    ensures NewNodes(UnparseAll(xs) + bad) == NewNode(bad).PropagateFailure()
    decreases |xs|
  {
    if xs == [] {
      assert UnparseAll(xs) + bad == bad;
    } else {
      var more := UnparseAll(xs[1..]) + bad;
      assert UnparseAll(xs) + bad == Unparse(xs[0]) + more;
      NewNodeUnparse(xs[0], more);
      NewNodesFirstFailure(xs[1..], bad);
    }
  }

  // ----- declarations -----

  predicate Declarable(d: TopLevelNode) {
    d.WordDeclare? && Expressible(d.value)
  }

  /** Folded nodes that `build_tree` reads as the declarations `ds`. */
  function UnparseTop(ds: seq<TopLevelNode>): seq<FoldedStreamNode>
    requires forall i | 0 <= i < |ds| :: Declarable(ds[i])
  {
    if ds == [] then []
    else
      assert Declarable(ds[0]);
      [Folding.AtSign, Folding.Ident(ds[0].name)] + Unparse(ds[0].value) + UnparseTop(ds[1..])
  }

  /** `@ name value` declares `name` with the value read after it, and the
      declarations after it follow. */
  lemma BuildTopWord(name: string, x: ASTNode, rest: seq<FoldedStreamNode>)
    requires Expressible(x)
    ensures BuildTop([Folding.AtSign, Folding.Ident(name)] + Unparse(x) + rest)
         == Prepend([WordDeclare(name, x)], BuildTop(rest))
  {
    var ns := [Folding.AtSign, Folding.Ident(name)] + Unparse(x) + rest;
    assert ns[1..][1..] == Unparse(x) + rest;
    NewNodeUnparse(x, rest);
  }

  /** Written declarations are read back. */
  lemma {:induction false} BuildTopUnparse(ds: seq<TopLevelNode>)
    requires forall i | 0 <= i < |ds| :: Declarable(ds[i])
    ensures BuildTop(UnparseTop(ds)) == Ok(ds)
  {
    if ds != [] {
      BuildTopWord(ds[0].name, ds[0].value, UnparseTop(ds[1..]));
      BuildTopUnparse(ds[1..]);
      assert [ds[0]] + ds[1..] == ds;
    }
  }

  /** The whole builder, from tokens: the tokens of written declarations
      build those declarations. */
  lemma BuildTreeRoundTrip(ds: seq<TopLevelNode>)
    requires forall i | 0 <= i < |ds| :: Declarable(ds[i])
    ensures BuildTree(Folding.Flatten(UnparseTop(ds))) == Ok(ds)
  {
    Folding.FoldStreamFlatten(UnparseTop(ds));
    BuildTopUnparse(ds);
  }

  // ----- the exploratory tests of src/ast.rs, from their tokens on -----

  /** `exp_fold`'s tokens fold into the typing sigil, its name and an empty
      square group, then `@main` and a curly group holding the string and
      the `.`. */
  lemma ExpFoldTokens()
    ensures var ts := [Tokenizer.QMark, Tokenizer.Ident("main"), Tokenizer.Square(true), Tokenizer.Square(false),
                       Tokenizer.AtSign, Tokenizer.Ident("main"), Tokenizer.Curly(true),
                       Tokenizer.StringLiteral("Hello world!\n"), Tokenizer.Ident("."), Tokenizer.Curly(false)];
      Folding.FoldStream(ts)
        == Ok([Folding.QMark, Folding.Ident("main"), Folding.Square([]), Folding.AtSign, Folding.Ident("main"),
               Folding.Curly([Folding.StringLiteral("Hello world!\n"), Folding.Ident(".")])])
  {
    var ts := [Tokenizer.QMark, Tokenizer.Ident("main"), Tokenizer.Square(true), Tokenizer.Square(false),
               Tokenizer.AtSign, Tokenizer.Ident("main"), Tokenizer.Curly(true),
               Tokenizer.StringLiteral("Hello world!\n"), Tokenizer.Ident("."), Tokenizer.Curly(false)];
    var cs := [Folding.StringLiteral("Hello world!\n"), Folding.Ident(".")];
    var ns := [Folding.QMark, Folding.Ident("main"), Folding.Square([]), Folding.AtSign, Folding.Ident("main"),
               Folding.Curly(cs)];
    assert Folding.Flatten(cs[1..]) == [Tokenizer.Ident(".")] + Folding.Flatten([]);
    assert Folding.Flatten(cs) == ts[7..9];
    assert Folding.Flatten(ns[5..]) == ts[6..] + Folding.Flatten([]);
    assert Folding.Flatten(ns[4..]) == ts[5..];
    assert Folding.Flatten(ns[3..]) == ts[4..];
    assert Folding.Flatten(ns[2..]) == ts[2..];
    assert Folding.Flatten(ns[1..]) == ts[1..];
    assert Folding.Flatten(ns) == ts;
    Folding.FoldStreamFlatten(ns);
  }

  /** The declarations of `exp_extract_top_level`. */
  function ExtractTopLevelDecls(): seq<TopLevelNode> {
    var hello := Curly([StringLiteral("Hello world!\n"), Ident(".")]);
    [WordDeclare("main", Curly([NumericLiteral(NumericLiterals.Boolean(true)), hello, Ident("if")])),
     WordDeclare("other", Ident("main"))]
  }

  /** Its folded forest: `@main {1b {..} if} @other main`. */
  function ExtractTopLevelForest(): seq<FoldedStreamNode> {
    var hf := [Folding.StringLiteral("Hello world!\n"), Folding.Ident(".")];
    [Folding.AtSign, Folding.Ident("main"),
     Folding.Curly([Folding.NumericLiteral("1b"), Folding.Curly(hf), Folding.Ident("if")]),
     Folding.AtSign, Folding.Ident("other"), Folding.Ident("main")]
  }

  /** Those declarations are written as that forest. */
  lemma ExtractTopLevelWritten()
    ensures var ds := ExtractTopLevelDecls();
      && (forall i | 0 <= i < |ds| :: Declarable(ds[i]))
      && UnparseTop(ds) == ExtractTopLevelForest()
  {
    var ds := ExtractTopLevelDecls();
    var hs := [StringLiteral("Hello world!\n"), Ident(".")];
    var body := [NumericLiteral(NumericLiterals.Boolean(true)), Curly(hs), Ident("if")];
    assert ds[0].value == Curly(body);
    assert Expressible(Curly(hs));
    assert Expressible(Curly(body));
    assert Declarable(ds[0]) && Declarable(ds[1]);
    var hf := [Folding.StringLiteral("Hello world!\n"), Folding.Ident(".")];
    assert UnparseAll(hs[1..]) == [Folding.Ident(".")] + UnparseAll([]);
    assert UnparseAll(hs) == hf;
    var bf := [Folding.NumericLiteral("1b"), Folding.Curly(hf), Folding.Ident("if")];
    assert UnparseAll(body[2..]) == [Folding.Ident("if")] + UnparseAll([]);
    assert UnparseAll(body[1..]) == [Folding.Curly(hf)] + UnparseAll(body[2..]);
    assert NumericLiterals.ToString(NumericLiterals.Boolean(true)) == "1b";
    assert UnparseAll(body) == bf;
    assert ds[1..][1..] == [];
    assert UnparseTop(ds[1..]) == [Folding.AtSign, Folding.Ident("other"), Folding.Ident("main")] + UnparseTop([]);
  }

  /** And the forest as the test's tokens. */
  lemma ExtractTopLevelFlat()
    ensures Folding.Flatten(ExtractTopLevelForest())
         == [Tokenizer.AtSign, Tokenizer.Ident("main"), Tokenizer.Curly(true), Tokenizer.NumericLiteral("1b"),
             Tokenizer.Curly(true), Tokenizer.StringLiteral("Hello world!\n"), Tokenizer.Ident("."),
             Tokenizer.Curly(false), Tokenizer.Ident("if"), Tokenizer.Curly(false),
             Tokenizer.AtSign, Tokenizer.Ident("other"), Tokenizer.Ident("main")]
  {
    var ts := [Tokenizer.AtSign, Tokenizer.Ident("main"), Tokenizer.Curly(true), Tokenizer.NumericLiteral("1b"),
               Tokenizer.Curly(true), Tokenizer.StringLiteral("Hello world!\n"), Tokenizer.Ident("."),
               Tokenizer.Curly(false), Tokenizer.Ident("if"), Tokenizer.Curly(false),
               Tokenizer.AtSign, Tokenizer.Ident("other"), Tokenizer.Ident("main")];
    var ns := ExtractTopLevelForest();
    var hf := [Folding.StringLiteral("Hello world!\n"), Folding.Ident(".")];
    var bf := [Folding.NumericLiteral("1b"), Folding.Curly(hf), Folding.Ident("if")];
    assert ns[2] == Folding.Curly(bf);
    assert Folding.Flatten(hf[1..]) == [Tokenizer.Ident(".")] + Folding.Flatten([]);
    assert Folding.Flatten(hf) == ts[5..7];
    assert Folding.Flatten(bf[2..]) == [Tokenizer.Ident("if")] + Folding.Flatten([]);
    assert Folding.Flatten(bf[1..]) == ts[4..9];
    assert Folding.Flatten(bf) == ts[3..9];
    assert Folding.Flatten(ns[5..]) == [Tokenizer.Ident("main")] + Folding.Flatten([]);
    assert Folding.Flatten(ns[4..]) == ts[11..];
    assert Folding.Flatten(ns[3..]) == ts[10..];
    assert Folding.Flatten(ns[2..]) == ts[2..];
    assert Folding.Flatten(ns[1..]) == ts[1..];
  }

  /** `exp_extract_top_level`'s tokens build two word declarations: `main`,
      whose curly body holds the boolean `1b`, the nested group and the
      identifier `if`, and `other`, an alias of `main`. */
  lemma ExtractTopLevelTokens()
    ensures var ts := [Tokenizer.AtSign, Tokenizer.Ident("main"), Tokenizer.Curly(true), Tokenizer.NumericLiteral("1b"),
                       Tokenizer.Curly(true), Tokenizer.StringLiteral("Hello world!\n"), Tokenizer.Ident("."),
                       Tokenizer.Curly(false), Tokenizer.Ident("if"), Tokenizer.Curly(false),
                       Tokenizer.AtSign, Tokenizer.Ident("other"), Tokenizer.Ident("main")];
      var hello := Curly([StringLiteral("Hello world!\n"), Ident(".")]);
      BuildTree(ts) == Ok([WordDeclare("main", Curly([NumericLiteral(NumericLiterals.Boolean(true)), hello, Ident("if")])),
                           WordDeclare("other", Ident("main"))])
  {
    ExtractTopLevelWritten();
    ExtractTopLevelFlat();
    BuildTreeRoundTrip(ExtractTopLevelDecls());
  }
}

=== FILE: decimal.dfy ===
/** Machine integer types, decimal rendering, and the parts of Rust's
    `str::parse` that the numeric-literal decoder calls: `parse::<u8>`,
    `parse::<u64>`, `parse::<i64>` and the syntax accepted by `parse::<f64>`.
    Integers are unbounded here, so every Rust integer width is a subset type
    and every range check is written out. */
module Decimal {
  import opened Outcomes

  const U8_LIMIT: int := 0x100
  const U64_LIMIT: int := 0x1_0000_0000_0000_0000
  const I64_LIMIT: int := 0x8000_0000_0000_0000

  type u8 = x: int | 0 <= x < 0x100
  type u32 = x: int | 0 <= x < 0x1_0000_0000
  type u64 = x: int | 0 <= x < 0x1_0000_0000_0000_0000
  type i64 = x: int | -0x8000_0000_0000_0000 <= x < 0x8000_0000_0000_0000

  predicate IsDigit(c: char) {
    '0' <= c <= '9'
  }

  predicate IsDigits(s: string) {
    forall i | 0 <= i < |s| :: IsDigit(s[i])
  }

  function DigitValue(c: char): nat
    requires IsDigit(c)
  {
    c as int - '0' as int
  }

  function DigitChar(d: nat): (c: char)
    requires d < 10
    ensures IsDigit(c) && DigitValue(c) == d
  {
    ('0' as int + d) as char
  }

  /** The value of a run of decimal digits, most significant digit first. */
  function DigitsValue(s: string): nat
    requires IsDigits(s)
    decreases |s|
  {
    if s == [] then 0 else 10 * DigitsValue(s[..|s| - 1]) + DigitValue(s[|s| - 1])
  }

  /** Rust's `Display` for a non-negative integer: digits only, no leading zero. */
  function NatToString(n: nat): (r: string)
    ensures 1 <= |r| && IsDigits(r)
    ensures |r| > 1 ==> r[0] != '0'
    decreases n
  {
    if n < 10 then [DigitChar(n)] else NatToString(n / 10) + [DigitChar(n % 10)]
  }

  /** Rust's `Display` for a signed integer: a minus sign only when negative. */
  function IntToString(i: int): (r: string)
    ensures 1 <= |r|
    ensures r[0] == '-' <==> i < 0
  {
    if i < 0 then "-" + NatToString(-i) else NatToString(i)
  }

  /** Reading back what NatToString writes gives the number it was given. */
  lemma {:induction false} NatToStringValue(n: nat)
    ensures DigitsValue(NatToString(n)) == n
    decreases n
  {
    if n >= 10 {
      var s := NatToString(n);
      assert s[..|s| - 1] == NatToString(n / 10);
      NatToStringValue(n / 10);
    }
  }

  /** Index of the first `c` in `s`, or `|s|` when there is none; the split
      point of Rust's `split_once`. */
  function IndexOf(s: string, c: char): (k: nat)
    ensures k <= |s|
    ensures forall j | 0 <= j < k :: s[j] != c
    ensures k < |s| ==> s[k] == c
    decreases |s|
  {
    if s == [] then 0 else if s[0] == c then 0 else 1 + IndexOf(s[1..], c)
  }

  /** The first `c` in `x + [c] + y` is the one after `x` when `x` has none. */
  lemma IndexOfAt(x: string, c: char, y: string)
    requires c !in x
    ensures IndexOf(x + [c] + y, c) == |x|
  {
    var s := x + [c] + y;
    assert s[|x|] == c;
    assert forall j | 0 <= j < |x| :: s[j] == x[j];
  }

  /** The digit text of an unsigned number: a leading `+` is allowed. */
  function UnsignedDigitsOf(s: string): string {
    if |s| > 0 && s[0] == '+' then s[1..] else s
  }

  /** The syntax of an unsigned integer: an optional `+`, then at least one
      ASCII digit. */
  predicate IsUnsignedText(s: string) {
    var digits := UnsignedDigitsOf(s);
    digits != [] && IsDigits(digits)
  }

  /** The syntax of a signed integer: an optional `+` or `-`, then at least
      one ASCII digit. */
  predicate IsSignedText(s: string) {
    if |s| > 0 && s[0] == '-' then |s| > 1 && IsDigits(s[1..]) else IsUnsignedText(s)
  }

  /** The number an integer text denotes, before any range check. */
  function SignedValue(s: string): int
    requires IsSignedText(s)
  {
    if |s| > 0 && s[0] == '-' then -(DigitsValue(s[1..]) as int)
    else DigitsValue(UnsignedDigitsOf(s))
  }

  /** Rust's `from_str` for an unsigned integer type whose values lie below
      `limit`: an optional `+`, then at least one ASCII digit; anything else,
      or a value out of range, is an error. */
  function ParseUnsigned(s: string, limit: nat): (r: Outcome<nat>)
    ensures !r.Panic?
    ensures r.Ok? ==> r.value < limit
    ensures r.Ok? ==> |s| > 0 && (IsDigit(s[0]) || s[0] == '+')
    ensures r.Ok? ==> forall i | 0 < i < |s| :: IsDigit(s[i])
    ensures r.Ok? <==> IsUnsignedText(s) && DigitsValue(UnsignedDigitsOf(s)) < limit
    ensures r.Ok? ==> r.value == DigitsValue(UnsignedDigitsOf(s))
  {
    var digits := UnsignedDigitsOf(s);
    if s == [] then Err("cannot parse integer from empty string")
    else if digits == [] || !IsDigits(digits) then Err("invalid digit found in string")
    else if DigitsValue(digits) >= limit then Err("number too large to fit in target type")
    else Ok(DigitsValue(digits))
  }

  /** Rust's `from_str` for a signed integer type whose values lie in
      `[-limit, limit)`: an optional `+` or `-`, then at least one digit. */
  function ParseSigned(s: string, limit: nat): (r: Outcome<int>)
    requires limit > 0
    ensures !r.Panic?
    ensures r.Ok? ==> -(limit as int) <= r.value < limit
    ensures r.Ok? ==> |s| > 0 && (IsDigit(s[0]) || s[0] == '+' || s[0] == '-')
    ensures r.Ok? ==> (r.value < 0 ==> s[0] == '-')
    ensures r.Ok? <==> IsSignedText(s) && -(limit as int) <= SignedValue(s) < limit
    ensures r.Ok? ==> r.value == SignedValue(s)
  {
    var negative := |s| > 0 && s[0] == '-';
    var digits := if negative then s[1..] else UnsignedDigitsOf(s);
    if s == [] then Err("cannot parse integer from empty string")
    else if digits == [] || !IsDigits(digits) then Err("invalid digit found in string")
    else if negative then
      (if DigitsValue(digits) > limit then Err("number too small to fit in target type")
       else Ok(-(DigitsValue(digits) as int)))
    else if DigitsValue(digits) >= limit then Err("number too large to fit in target type")
    else Ok(DigitsValue(digits))
  }

  /** `str::parse::<u8>()`. */
  function ParseU8(s: string): (r: Outcome<u8>)
    ensures !r.Panic?
    ensures r.Ok? <==> ParseUnsigned(s, U8_LIMIT).Ok?
    ensures r.Ok? <==> IsUnsignedText(s) && DigitsValue(UnsignedDigitsOf(s)) < U8_LIMIT
    ensures r.Ok? ==> r.value == DigitsValue(UnsignedDigitsOf(s))
  {
    var n :- ParseUnsigned(s, U8_LIMIT);
    Ok(n)
  }

  /** `str::parse::<u64>()`. */
  function ParseU64(s: string): (r: Outcome<u64>)
    ensures !r.Panic?
    ensures r.Ok? <==> ParseUnsigned(s, U64_LIMIT).Ok?
    ensures r.Ok? <==> IsUnsignedText(s) && DigitsValue(UnsignedDigitsOf(s)) < U64_LIMIT
    ensures r.Ok? ==> r.value == DigitsValue(UnsignedDigitsOf(s))
  {
    var n :- ParseUnsigned(s, U64_LIMIT);
    Ok(n)
  }

  /** `str::parse::<i64>()`. */
  function ParseI64(s: string): (r: Outcome<i64>)
    ensures !r.Panic?
    ensures r.Ok? <==> ParseSigned(s, I64_LIMIT).Ok?
    ensures r.Ok? <==> IsSignedText(s) && -I64_LIMIT <= SignedValue(s) < I64_LIMIT
    ensures r.Ok? ==> r.value == SignedValue(s)
  {
    var n :- ParseSigned(s, I64_LIMIT);
    Ok(n)
  }

  /** Every unsigned number is read back from its own rendering. */
  lemma ParseUnsignedRoundTrip(n: nat, limit: nat)
    requires n < limit
    ensures ParseUnsigned(NatToString(n), limit) == Ok(n)
  {
    NatToStringValue(n);
  }

  /** Every signed number is read back from its own rendering. */
  lemma ParseSignedRoundTrip(i: int, limit: nat)
    requires -(limit as int) <= i < limit
    ensures ParseSigned(IntToString(i), limit) == Ok(i)
  {
    var s := IntToString(i);
    if i < 0 {
      var digits := NatToString(-i);
      NatToStringValue(-i);
      assert s == "-" + digits;
      assert s[0] == '-' && s[1..] == digits;
      assert DigitsValue(s[1..]) == -i <= limit;
    } else {
      NatToStringValue(i);
      assert s == NatToString(i) && s[0] != '+' && s[0] != '-';
      assert UnsignedDigitsOf(s) == s;
    }
  }

  /** An unsigned parse refuses a minus sign, so a negative number never
      reads as unsigned. */
  lemma ParseUnsignedRejectsMinus(t: string, limit: nat)
    ensures ParseUnsigned("-" + t, limit).Err?
  {
  }

  // ----- the syntax of Rust's `str::parse::<f64>()` -----

  function AsciiLower(s: string): (r: string)
    ensures |r| == |s|
  {
    seq(|s|, i requires 0 <= i < |s| => if 'A' <= s[i] <= 'Z' then (s[i] as int + 32) as char else s[i])
  }

  /** `Digit+ | Digit+ '.' Digit* | Digit* '.' Digit+`. */
  predicate IsMantissa(m: string) {
    var d := IndexOf(m, '.');
    IsDigits(m[..d]) && (d == |m| || IsDigits(m[d + 1..])) && |m| > (if d < |m| then 1 else 0)
  }

  /** `Sign? Digit+`. */
  predicate IsExponent(e: string) {
    var d := if |e| > 0 && (e[0] == '+' || e[0] == '-') then e[1..] else e;
    |d| > 0 && IsDigits(d)
  }

  /** `Number ::= Mantissa ('e' Exponent)?`, over already lower-cased text. */
  predicate IsDecimalFloat(t: string) {
    var k := IndexOf(t, 'e');
    IsMantissa(t[..k]) && (k == |t| || IsExponent(t[k + 1..]))
  }

  /** The strings Rust's `f64` parser accepts: after lower-casing, an optional
      sign, then `inf`, `infinity`, `nan` or a decimal number. */
  predicate IsF64Text(s: string) {
    var t := AsciiLower(if |s| > 0 && (s[0] == '+' || s[0] == '-') then s[1..] else s);
    t == "inf" || t == "infinity" || t == "nan" || IsDecimalFloat(t)
  }
}

=== FILE: folding.dfy ===
/** The bracket folder of src/ast.rs (`fold_stream`, `fold_until_sqend`,
    `fold_until_cuend`): the flat token list becomes a forest in which each
    `[ .. ]` and `{ .. }` pair is one node holding its contents. The three
    Rust functions differ only in which close bracket ends them, so here they
    are one function with a `Scope` argument. */
module Folding {
  import opened Outcomes
  import Tokenizer

  type Token = Tokenizer.Token

  datatype FoldedStreamNode =
    | Ident(name: string)
    | NumericLiteral(text: string)
    | CharLiteral(c: char)
    | StringLiteral(text: string)
    | Dollar
    | Colon
    | Octothorp
    | AtSign
    | QMark
    | Square(children: seq<FoldedStreamNode>)
    | Curly(children: seq<FoldedStreamNode>)

  /** Which function is running: `fold_stream`, `fold_until_sqend` or
      `fold_until_cuend`. */
  datatype Scope = TopLevel | InSquare | InCurly

  predicate IsGroup(n: FoldedStreamNode) {
    n.Square? || n.Curly?
  }

  /** Tokens that become a node on their own: everything but brackets and
      comments. */
  predicate IsLeafToken(t: Token) {
    !t.Square? && !t.Curly? && !t.Comment?
  }

  predicate IsOpen(t: Token) {
    (t.Square? && t.open) || (t.Curly? && t.open)
  }

  /** The one-for-one part of the folder's match. */
  function LeafOf(t: Token): (n: FoldedStreamNode)
    requires IsLeafToken(t)
    ensures !IsGroup(n)
  {
    match t
    case Ident(x) => Ident(x)
    case NumericLiteral(x) => NumericLiteral(x)
    case CharLiteral(c) => CharLiteral(c)
    case StringLiteral(x) => StringLiteral(x)
    case Dollar => Dollar
    case Colon => Colon
    case Octothorp => Octothorp
    case AtSign => AtSign
    case QMark => QMark
  }

  /** The token a leaf node was made from. */
  function TokenOf(n: FoldedStreamNode): (t: Token)
    requires !IsGroup(n)
    ensures IsLeafToken(t) && LeafOf(t) == n
  {
    match n
    case Ident(x) => Tokenizer.Ident(x)
    case NumericLiteral(x) => Tokenizer.NumericLiteral(x)
    case CharLiteral(c) => Tokenizer.CharLiteral(c)
    case StringLiteral(x) => Tokenizer.StringLiteral(x)
    case Dollar => Tokenizer.Dollar
    case Colon => Tokenizer.Colon
    case Octothorp => Tokenizer.Octothorp
    case AtSign => Tokenizer.AtSign
    case QMark => Tokenizer.QMark
  }

  /** A leaf token is recovered from its node, so no two leaf tokens make the
      same node. */
  lemma LeafTokenRoundTrip(t: Token, u: Token)
    requires IsLeafToken(t) && IsLeafToken(u)
    ensures TokenOf(LeafOf(t)) == t
    ensures LeafOf(t) == LeafOf(u) ==> t == u
  {
  }

  /** The folder. On success it returns the nodes of this scope and the
      input after the close bracket that ended it; end of input ends every
      scope, so an unclosed group silently takes everything that is left. A
      close bracket that does not end the current scope is a panic. */
  function Fold(scope: Scope, ts: seq<Token>): (r: Outcome<(seq<FoldedStreamNode>, seq<Token>)>)
    ensures !r.Err?
    ensures r.Ok? ==> |r.value.1| <= |ts|
    ensures r.Ok? && scope == TopLevel ==> r.value.1 == []
    decreases |ts|
  {
    if ts == [] then Ok(([], []))
    else match ts[0]
      case Square(open) =>
        if open then
          var inner :- Fold(InSquare, ts[1..]);
          var outer :- Fold(scope, inner.1);
          Ok(([Square(inner.0)] + outer.0, outer.1))
        else if scope == InSquare then Ok(([], ts[1..]))
        else Panic("missmatch perens")
      case Curly(open) =>
        if open then
          var inner :- Fold(InCurly, ts[1..]);
          var outer :- Fold(scope, inner.1);
          Ok(([Curly(inner.0)] + outer.0, outer.1))
        else if scope == InCurly then Ok(([], ts[1..]))
        else Panic("missmatch perens")
      case Comment(_) => Fold(scope, ts[1..])
      case _ =>
        var more :- Fold(scope, ts[1..]);
        Ok(([LeafOf(ts[0])] + more.0, more.1))
  }

  /** `fold_stream`. */
  function FoldStream(ts: seq<Token>): (r: Outcome<seq<FoldedStreamNode>>)
    ensures !r.Err?
  {
    var folded :- Fold(TopLevel, ts);
    Ok(folded.0)
  }

  // ----- a measure and the inverse of folding -----

  function Size(ns: seq<FoldedStreamNode>): nat {
    if ns == [] then 0 else NodeSize(ns[0]) + Size(ns[1..])
  }

  function NodeSize(n: FoldedStreamNode): (k: nat)
    ensures k >= 1
  {
    match n
    case Square(cs) => 1 + Size(cs)
    case Curly(cs) => 1 + Size(cs)
    case _ => 1
  }

  /** Writes a forest back as tokens, every group between its brackets. */
  function Flatten(ns: seq<FoldedStreamNode>): seq<Token>
    decreases Size(ns), 1
  {
    if ns == [] then []
    else FlattenNode(ns[0]) + Flatten(ns[1..])
  }

  function FlattenNode(n: FoldedStreamNode): seq<Token>
    decreases NodeSize(n), 0
  {
    match n
    case Square(cs) => [Tokenizer.Square(true)] + Flatten(cs) + [Tokenizer.Square(false)]
    case Curly(cs) => [Tokenizer.Curly(true)] + Flatten(cs) + [Tokenizer.Curly(false)]
    case _ => [TokenOf(n)]
  }

  /** The close bracket that ends a scope. */
  function Closer(scope: Scope): Token
    requires scope != TopLevel
  {
    if scope == InSquare then Tokenizer.Square(false) else Tokenizer.Curly(false)
  }

  /** One step of the folder on an open bracket. */
  lemma FoldGroupStep(scope: Scope, ts: seq<Token>, cs: seq<FoldedStreamNode>, mid: seq<Token>,
                      ns: seq<FoldedStreamNode>, rest: seq<Token>)
    requires |ts| > 0 && (ts[0] == Tokenizer.Square(true) || ts[0] == Tokenizer.Curly(true))
    requires Fold(if ts[0].Square? then InSquare else InCurly, ts[1..]) == Ok((cs, mid))
    requires Fold(scope, mid) == Ok((ns, rest))
    ensures Fold(scope, ts) == Ok(([GroupOf(ts[0], cs)] + ns, rest))
  {
  }

  /** One step of the folder on a leaf token. */
  lemma FoldLeafStep(scope: Scope, ts: seq<Token>, ns: seq<FoldedStreamNode>, rest: seq<Token>)
    requires |ts| > 0 && IsLeafToken(ts[0])
    requires Fold(scope, ts[1..]) == Ok((ns, rest))
    ensures Fold(scope, ts) == Ok(([LeafOf(ts[0])] + ns, rest))
  {
  }

  /** The tokens of a group followed by `after`, with the group's own
      close bracket split off. */
  lemma FlattenGroup(n: FoldedStreamNode, after: seq<Token>)
    requires IsGroup(n)
    ensures var ts := FlattenNode(n) + after;
      |ts| > 0 && ts[0] == (if n.Square? then Tokenizer.Square(true) else Tokenizer.Curly(true))
      && ts[1..] == Flatten(n.children) + ([if n.Square? then Tokenizer.Square(false) else Tokenizer.Curly(false)] + after)
  {
    var close := if n.Square? then Tokenizer.Square(false) else Tokenizer.Curly(false);
    assert FlattenNode(n)[1..] == Flatten(n.children) + [close];
  }

  /** Folding a flattened forest gives the forest back, whether the scope
      is ended by its own close bracket or by the end of the input. */
  lemma {:induction false} FoldFlatten(scope: Scope, ns: seq<FoldedStreamNode>, tail: seq<Token>)
    requires tail == [] || (scope != TopLevel && tail[0] == Closer(scope))
    ensures Fold(scope, Flatten(ns) + tail) == Ok((ns, if tail == [] then [] else tail[1..]))
    decreases Size(ns)
  {
    var ts := Flatten(ns) + tail;
    if ns == [] {
      assert ts == tail;
    } else {
      var n, more := ns[0], ns[1..];
      var after := Flatten(more) + tail;
      var rest := if tail == [] then [] else tail[1..];
      assert Size(ns) == NodeSize(n) + Size(more);
      assert ts == FlattenNode(n) + after;
      assert [n] + more == ns;
      FoldFlatten(scope, more, tail);
      if IsGroup(n) {
        var close := if n.Square? then Tokenizer.Square(false) else Tokenizer.Curly(false);
        FlattenGroup(n, after);
        FoldFlatten(if n.Square? then InSquare else InCurly, n.children, [close] + after);
        assert ([close] + after)[1..] == after;
        FoldGroupStep(scope, ts, n.children, after, more, rest);
      } else {
        assert ts[0] == TokenOf(n) && ts[1..] == after;
        FoldLeafStep(scope, ts, more, rest);
      }
    }
  }

  /** A forest written out as tokens folds back to itself. */
  lemma FoldStreamFlatten(ns: seq<FoldedStreamNode>)
    ensures FoldStream(Flatten(ns)) == Ok(ns)
  {
    FoldFlatten(TopLevel, ns, []);
    assert Flatten(ns) + [] == Flatten(ns);
  }

  /** A flattened forest in front of any input folds to that forest,
      followed by whatever the input folds to; a failure in the input is
      the failure of the whole. */
  lemma {:induction false} FoldFlattenThen(scope: Scope, ns: seq<FoldedStreamNode>, tail: seq<Token>)
    ensures var r := Fold(scope, tail);
      Fold(scope, Flatten(ns) + tail) == if r.Ok? then Ok((ns + r.value.0, r.value.1)) else r
    decreases Size(ns)
  {
    var r := Fold(scope, tail);
    if ns == [] {
      assert Flatten(ns) + tail == tail;
      if r.Ok? {
        assert ns + r.value.0 == r.value.0;
      }
    } else {
      var n, more := ns[0], ns[1..];
      assert Size(ns) == NodeSize(n) + Size(more);
      assert Flatten(ns) + tail == FlattenNode(n) + (Flatten(more) + tail);
      FoldFlattenThen(scope, more, tail);
      FoldNodeThen(scope, n, Flatten(more) + tail);
      if r.Ok? {
        SplitFirst(ns, r.value.0);
      }
    }
  }

  /** A sequence is its first element followed by the rest. */
  lemma SplitFirst<T>(xs: seq<T>, ys: seq<T>)
    requires xs != []
    ensures [xs[0]] + (xs[1..] + ys) == xs + ys
  {
    assert xs == [xs[0]] + xs[1..];
  }

  /** One written node in front of any input folds to that node, followed
      by whatever the input folds to. */
  lemma FoldNodeThen(scope: Scope, n: FoldedStreamNode, after: seq<Token>)
    ensures var r := Fold(scope, after);
      Fold(scope, FlattenNode(n) + after) == if r.Ok? then Ok(([n] + r.value.0, r.value.1)) else r
  {
    if IsGroup(n) {
      FoldGroupThen(scope, n, after);
    } else {
      var ts := FlattenNode(n) + after;
      assert ts[0] == TokenOf(n) && ts[1..] == after;
    }
  }

  /** The group case of `FoldNodeThen`. */
  lemma FoldGroupThen(scope: Scope, n: FoldedStreamNode, after: seq<Token>)
    requires IsGroup(n)
    ensures var r := Fold(scope, after);
      Fold(scope, FlattenNode(n) + after) == if r.Ok? then Ok(([n] + r.value.0, r.value.1)) else r
  {
    var ts := FlattenNode(n) + after;
    var close := if n.Square? then Tokenizer.Square(false) else Tokenizer.Curly(false);
    var inner := if n.Square? then InSquare else InCurly;
    FlattenGroup(n, after);
    FoldFlatten(inner, n.children, [close] + after);
    assert ([close] + after)[1..] == after;
    assert Fold(inner, ts[1..]) == Ok((n.children, after));
    assert GroupOf(ts[0], n.children) == n;
  }

  /** Without a stray close bracket no close bracket ever ends a scope, so
      every scope runs to the end of the input, as the top level does. */
  lemma {:induction false} NeverClosed(scope: Scope, u: seq<Token>)
    requires !HasStrayClose([], u)
    ensures Fold(scope, u) == Fold(TopLevel, u)
    decreases |u|
  {
    if u != [] && !(u[0].Square? || u[0].Curly?) {
      NeverClosed(scope, u[1..]);
    } else if u != [] && IsOpen(u[0]) {
      var inScope := if u[0].Square? then InSquare else InCurly;
      FoldPanicsOnStrayClose(inScope, [], u[1..]);
      assert Pending(inScope) + [] == [u[0].Square?];
      var inner := Fold(inScope, u[1..]);
      NeverClosed(scope, inner.value.1);
    }
  }

  /** An open bracket that is never closed is closed at the end of the
      input: the nodes before it stay as they are, and its group takes
      everything after it, folded as the top level folds it, nested
      unclosed brackets included. */
  lemma UnclosedGroup(pre: seq<FoldedStreamNode>, u: seq<Token>)
    requires !HasStrayClose([], u)
    ensures FoldStream(u).Ok?
    ensures FoldStream(Flatten(pre) + [Tokenizer.Square(true)] + u) == Ok(pre + [Square(FoldStream(u).value)])
    ensures FoldStream(Flatten(pre) + [Tokenizer.Curly(true)] + u) == Ok(pre + [Curly(FoldStream(u).value)])
  {
    FoldStreamPanics(u);
    UnclosedAfter(pre, Tokenizer.Square(true), u);
    UnclosedAfter(pre, Tokenizer.Curly(true), u);
  }

  /** An unclosed bracket at the front takes the whole input. */
  lemma OpenToEnd(t: Token, u: seq<Token>)
    requires IsOpen(t) && !HasStrayClose([], u) && Fold(TopLevel, u).Ok?
    ensures Fold(TopLevel, [t] + u) == Ok(([GroupOf(t, Fold(TopLevel, u).value.0)], []))
  {
    NeverClosed(if t.Square? then InSquare else InCurly, u);
    var ts := [t] + u;
    assert ts[0] == t && ts[1..] == u;
    assert Fold(TopLevel, []) == Ok(([], []));
    assert [GroupOf(t, Fold(TopLevel, u).value.0)] + [] == [GroupOf(t, Fold(TopLevel, u).value.0)];
  }

  /** The same, with any written forest in front of the unclosed bracket. */
  lemma UnclosedAfter(pre: seq<FoldedStreamNode>, t: Token, u: seq<Token>)
    requires IsOpen(t) && !HasStrayClose([], u) && Fold(TopLevel, u).Ok?
    ensures FoldStream(Flatten(pre) + [t] + u) == Ok(pre + [GroupOf(t, Fold(TopLevel, u).value.0)])
  {
    var ts := [t] + u;
    OpenToEnd(t, u);
    FoldFlattenThen(TopLevel, pre, ts);
    assert Flatten(pre) + [t] + u == Flatten(pre) + ts;
  }

  // ----- comments -----

  function StripComments(ts: seq<Token>): (r: seq<Token>)
    ensures |r| <= |ts|
  {
    if ts == [] then []
    else (if ts[0].Comment? then [] else [ts[0]]) + StripComments(ts[1..])
  }

  /** A comment-free prefix passes through unchanged. */
  lemma {:induction false} StripCommentsPrefix(ts: seq<Token>, k: nat)
    requires k <= |ts| && forall i | 0 <= i < k :: !ts[i].Comment?
    ensures StripComments(ts) == ts[..k] + StripComments(ts[k..])
    decreases k
  {
    if k > 0 {
      StripCommentsPrefix(ts[1..], k - 1);
      assert ts[1..][k - 1..] == ts[k..];
      assert ts[..k] == [ts[0]] + ts[1..][..k - 1];
    }
  }

  /** Comments make no difference to the folder at any depth: removing them
      beforehand gives the same nodes, and the same failure. */
  lemma {:induction false} FoldIgnoresComments(scope: Scope, ts: seq<Token>)
    ensures Fold(scope, StripComments(ts)) == MapOk(Fold(scope, ts), (p: (seq<FoldedStreamNode>, seq<Token>)) => (p.0, StripComments(p.1)))
    decreases |ts|
  {
    if ts != [] {
      var t, s := ts[0], StripComments(ts);
      FoldIgnoresComments(scope, ts[1..]);
      if t.Comment? {
        assert s == StripComments(ts[1..]);
      } else {
        assert s[0] == t && s[1..] == StripComments(ts[1..]);
        if IsOpen(t) {
          var inScope := if t.Square? then InSquare else InCurly;
          FoldIgnoresComments(inScope, ts[1..]);
          var inner := Fold(inScope, ts[1..]);
          if inner.Ok? {
            FoldIgnoresComments(scope, inner.value.1);
          }
        }
      }
    }
  }

  /** Properly nested input, comments aside, folds into the forest it is
      the flattening of. */
  lemma FoldOfNested(ts: seq<Token>, ns: seq<FoldedStreamNode>)
    requires StripComments(ts) == Flatten(ns)
    ensures FoldStream(ts) == Ok(ns)
  {
    FoldIgnoresComments(TopLevel, ts);
    FoldStreamFlatten(ns);
  }

  // ----- leaves -----

  /** The leaf nodes of a forest, left to right. */
  function Leaves(ns: seq<FoldedStreamNode>): seq<FoldedStreamNode>
    decreases Size(ns), 1
  {
    if ns == [] then [] else NodeLeaves(ns[0]) + Leaves(ns[1..])
  }

  function NodeLeaves(n: FoldedStreamNode): seq<FoldedStreamNode>
    decreases NodeSize(n), 0
  {
    if IsGroup(n) then Leaves(n.children) else [n]
  }

  /** The nodes the leaf tokens of `ts` become, in order. */
  function LeafNodes(ts: seq<Token>): seq<FoldedStreamNode> {
    if ts == [] then []
    else (if IsLeafToken(ts[0]) then [LeafOf(ts[0])] else []) + LeafNodes(ts[1..])
  }

  lemma LeavesCons(n: FoldedStreamNode, ns: seq<FoldedStreamNode>)
    ensures Leaves([n] + ns) == NodeLeaves(n) + Leaves(ns)
  {
    assert ([n] + ns)[0] == n && ([n] + ns)[1..] == ns;
  }

  /** Every leaf token the folder consumes becomes exactly one node, in
      order, whatever the nesting; brackets and comments become none. */
  lemma {:induction false} FoldKeepsLeaves(scope: Scope, ts: seq<Token>)
    ensures Fold(scope, ts).Ok? ==>
      LeafNodes(ts) == Leaves(Fold(scope, ts).value.0) + LeafNodes(Fold(scope, ts).value.1)
    decreases |ts|, 1
  {
    if ts != [] && Fold(scope, ts).Ok? {
      if IsOpen(ts[0]) {
        FoldKeepsLeavesGroup(scope, ts);
      } else if IsLeafToken(ts[0]) {
        FoldKeepsLeavesLeaf(scope, ts);
      } else {
        FoldKeepsLeaves(scope, ts[1..]);
      }
    }
  }

  /** The group an open bracket starts. */
  function GroupOf(t: Token, cs: seq<FoldedStreamNode>): FoldedStreamNode
    requires IsOpen(t)
  {
    if t.Square? then Square(cs) else Curly(cs)
  }

  lemma AppendAssoc<T>(a: seq<T>, b: seq<T>, c: seq<T>)
    ensures a + (b + c) == (a + b) + c
  {
  }

  lemma GroupLeaves(ts: seq<Token>, cs: seq<FoldedStreamNode>, mid: seq<Token>,
                    ns: seq<FoldedStreamNode>, rest: seq<Token>)
    requires ts != [] && IsOpen(ts[0])
    requires LeafNodes(ts[1..]) == Leaves(cs) + LeafNodes(mid)
    requires LeafNodes(mid) == Leaves(ns) + LeafNodes(rest)
    ensures LeafNodes(ts) == Leaves([GroupOf(ts[0], cs)] + ns) + LeafNodes(rest)
  {
    var g := GroupOf(ts[0], cs);
    assert LeafNodes(ts) == LeafNodes(ts[1..]);
    assert NodeLeaves(g) == Leaves(cs);
    LeavesCons(g, ns);
    AppendAssoc(Leaves(cs), Leaves(ns), LeafNodes(rest));
  }

  lemma {:induction false} FoldKeepsLeavesGroup(scope: Scope, ts: seq<Token>)
    requires ts != [] && IsOpen(ts[0]) && Fold(scope, ts).Ok?
    ensures LeafNodes(ts) == Leaves(Fold(scope, ts).value.0) + LeafNodes(Fold(scope, ts).value.1)
    decreases |ts|, 0
  {
    var t := ts[0];
    var inScope := if t.Square? then InSquare else InCurly;
    var inner := Fold(inScope, ts[1..]).value;
    var outer := Fold(scope, inner.1).value;
    FoldKeepsLeaves(inScope, ts[1..]);
    FoldKeepsLeaves(scope, inner.1);
    FoldGroupStep(scope, ts, inner.0, inner.1, outer.0, outer.1);
    GroupLeaves(ts, inner.0, inner.1, outer.0, outer.1);
  }

  lemma {:induction false} FoldKeepsLeavesLeaf(scope: Scope, ts: seq<Token>)
    requires ts != [] && IsLeafToken(ts[0]) && Fold(scope, ts).Ok?
    ensures LeafNodes(ts) == Leaves(Fold(scope, ts).value.0) + LeafNodes(Fold(scope, ts).value.1)
    decreases |ts|, 0
  {
    var more := Fold(scope, ts[1..]).value;
    FoldKeepsLeaves(scope, ts[1..]);
    FoldLeafStep(scope, ts, more.0, more.1);
    LeavesCons(LeafOf(ts[0]), more.0);
    assert LeafNodes(ts) == [LeafOf(ts[0])] + LeafNodes(ts[1..]);
  }

  // ----- stray close brackets -----

  /** Whether, reading `ts` with the open brackets `open` pending (innermost
      first, `true` for square), a close bracket comes that does not match
      the innermost pending open bracket, or comes with none pending. */
  predicate HasStrayClose(open: seq<bool>, ts: seq<Token>)
    decreases |ts|
  {
    if ts == [] then false
    else match ts[0]
      case Square(o) =>
        if o then HasStrayClose([true] + open, ts[1..])
        else if open != [] && open[0] then HasStrayClose(open[1..], ts[1..])
        else true
      case Curly(o) =>
        if o then HasStrayClose([false] + open, ts[1..])
        else if open != [] && !open[0] then HasStrayClose(open[1..], ts[1..])
        else true
      case _ => HasStrayClose(open, ts[1..])
  }

  /** The open bracket a scope is inside. */
  function Pending(scope: Scope): seq<bool> {
    match scope
    case TopLevel => []
    case InSquare => [true]
    case InCurly => [false]
  }

  /** The folder panics exactly on a stray close bracket: within a scope,
      either one comes before the scope ends, or one comes in what is left. */
  lemma {:induction false} FoldPanicsOnStrayClose(scope: Scope, open: seq<bool>, ts: seq<Token>)
    requires scope == TopLevel ==> open == []
    ensures HasStrayClose(Pending(scope) + open, ts) <==>
      Fold(scope, ts).Panic? || (Fold(scope, ts).Ok? && HasStrayClose(open, Fold(scope, ts).value.1))
    decreases |ts|
  {
    if ts != [] {
      var t := ts[0];
      FoldPanicsOnStrayClose(scope, open, ts[1..]);
      if IsOpen(t) {
        var inScope := if t.Square? then InSquare else InCurly;
        FoldPanicsOnStrayClose(inScope, Pending(scope) + open, ts[1..]);
        assert Pending(inScope) + (Pending(scope) + open) == [t.Square?] + (Pending(scope) + open);
        var inner := Fold(inScope, ts[1..]);
        if inner.Ok? {
          FoldPanicsOnStrayClose(scope, open, inner.value.1);
        }
      } else if t.Square? || t.Curly? {
        if scope != TopLevel {
          assert (Pending(scope) + open)[1..] == open;
        }
      }
    }
  }

  /** `fold_stream` panics exactly when some close bracket is stray. */
  lemma FoldStreamPanics(ts: seq<Token>)
    ensures FoldStream(ts).Panic? <==> HasStrayClose([], ts)
  {
    FoldPanicsOnStrayClose(TopLevel, [], ts);
    assert Pending(TopLevel) + [] == [];
  }
}

=== FILE: namemap.dfy ===
/** The name map of src/namemap.rs: every top-level word declaration is
    classified by the shape of its value, and the classifications are
    collected in a map from the declared name. The Rust `HashMap` is a Dafny
    `map`. */
module NameMaps {
  import opened Outcomes
  import NumericLiterals
  import Tokenizer
  import Folding
  import Ast

  datatype NameMapNode =
    | Word(implementation: seq<Ast.ASTNode>, dependsOn: seq<string>)
    | AliasedWord(alias: string)
    | StringConst(text: string)
    | NumericConst(literal: NumericLiterals.NumericLiteral)

  type NameMap = map<string, NameMapNode>

  /** The names of the identifiers directly in a word body, in order and
      with repeats; nested groups are not searched. */
  function DependsOn(body: seq<Ast.ASTNode>): seq<string> {
    if body == [] then []
    else (if body[0].Ident? then [body[0].name] else []) + DependsOn(body[1..])
  }

  /** The value of `@name value` decides what `name` is: a curly group is a
      word, an identifier an alias, a literal a constant; any other shape is
      an error. */
  function Classify(v: Ast.ASTNode): (r: Outcome<NameMapNode>)
    ensures !r.Panic?
    ensures r.Err? <==> !(v.Curly? || v.Ident? || v.NumericLiteral? || v.StringLiteral?)
    ensures v.Curly? ==> r == Ok(Word(v.children, DependsOn(v.children)))
    ensures v.Ident? ==> r == Ok(AliasedWord(v.name))
    ensures v.NumericLiteral? ==> r == Ok(NumericConst(v.literal))
    ensures v.StringLiteral? ==> r == Ok(StringConst(v.text))
  {
    match v
    case Curly(a) => Ok(Word(a, DependsOn(a)))
    case Ident(a) => Ok(AliasedWord(a))
    case NumericLiteral(a) => Ok(NumericConst(a))
    case StringLiteral(s) => Ok(StringConst(s))
    case _ => Err("Bad word declaration value")
  }

  /** The loop of `extract_name_map`, continuing from the map `m`: each
      value is classified before its name is inserted; inserting a name
      that is already present, or meeting a typing declaration, is
      `todo!()`. */
  function InsertAll(m: NameMap, ds: seq<Ast.TopLevelNode>): (r: Outcome<NameMap>)
    decreases |ds|
  {
    if ds == [] then Ok(m)
    else match ds[0]
      case WordDeclare(name, value) =>
        var entry :- Classify(value);
        if name in m then Panic("not yet implemented")
        else InsertAll(m[name := entry], ds[1..])
      case Typing(_) => Panic("not yet implemented")
  }

  /** `extract_name_map`. */
  function ExtractNameMap(base: seq<Ast.TopLevelNode>): (r: Outcome<NameMap>) {
    InsertAll(map[], base)
  }

  // ----- depends_on -----

  /** `depends_on` of a concatenation is the concatenation of the two. */
  lemma {:induction false} DependsOnAppend(a: seq<Ast.ASTNode>, b: seq<Ast.ASTNode>)
    ensures DependsOn(a + b) == DependsOn(a) + DependsOn(b)
    decreases |a|
  {
    if a == [] {
      assert a + b == b;
    } else {
      assert (a + b)[0] == a[0] && (a + b)[1..] == a[1..] + b;
      DependsOnAppend(a[1..], b);
    }
  }

  /** A name is a dependency exactly when an identifier of that name sits
      directly in the body. */
  lemma {:induction false} DependsOnMembership(body: seq<Ast.ASTNode>, s: string)
    ensures s in DependsOn(body) <==> exists i | 0 <= i < |body| :: body[i] == Ast.Ident(s)
    decreases |body|
  {
    if body != [] {
      DependsOnMembership(body[1..], s);
      if exists i | 0 <= i < |body[1..]| :: body[1..][i] == Ast.Ident(s) {
        var i :| 0 <= i < |body[1..]| && body[1..][i] == Ast.Ident(s);
        assert body[i + 1] == Ast.Ident(s);
      }
      if exists i | 0 <= i < |body| :: body[i] == Ast.Ident(s) {
        var i :| 0 <= i < |body| && body[i] == Ast.Ident(s);
        if i > 0 {
          assert body[1..][i - 1] == Ast.Ident(s);
        }
      }
    }
  }

  // ----- the map -----

  /** Every declaration is a word declaration with a value of a known
      shape, and no name is declared twice. */
  predicate WellDeclared(ds: seq<Ast.TopLevelNode>) {
    (forall i | 0 <= i < |ds| :: ds[i].WordDeclare? && Classify(ds[i].value).Ok?)
    && (forall i, j | 0 <= i < j < |ds| :: ds[i].name != ds[j].name)
  }

  function DeclaredNames(ds: seq<Ast.TopLevelNode>): set<string> {
    set i | 0 <= i < |ds| :: ds[i].name
  }

  /** The loop succeeds exactly on well-declared input whose names are not
      already in the map; then it adds one entry per declaration, mapping the
      name to the classification of its own value, and changes no other
      entry. */
  lemma {:induction false} InsertAllSpec(m: NameMap, ds: seq<Ast.TopLevelNode>)
    ensures InsertAll(m, ds).Ok? <==> WellDeclared(ds) && DeclaredNames(ds) !! m.Keys
    ensures InsertAll(m, ds).Ok? ==>
      var r := InsertAll(m, ds).value;
      r.Keys == m.Keys + DeclaredNames(ds)
      && (forall k | k in m :: r[k] == m[k])
      && (forall i | 0 <= i < |ds| :: r[ds[i].name] == Classify(ds[i].value).value)
    decreases |ds|
  {
    if ds != [] {
      var d, more := ds[0], ds[1..];
      assert DeclaredNames(ds) == {d.name} + DeclaredNames(more) by {
        forall x | x in DeclaredNames(ds) ensures x in {d.name} + DeclaredNames(more) {
          var i :| 0 <= i < |ds| && ds[i].name == x;
          if i > 0 {
            assert more[i - 1].name == x;
          }
        }
        forall x | x in DeclaredNames(more) ensures x in DeclaredNames(ds) {
          var i :| 0 <= i < |more| && more[i].name == x;
          assert ds[i + 1].name == x;
        }
      }
      assert WellDeclared(ds) <==>
        (WellDeclared(more) && d.WordDeclare? && Classify(d.value).Ok? && d.name !in DeclaredNames(more)) by {
        if WellDeclared(more) && d.WordDeclare? && Classify(d.value).Ok? && d.name !in DeclaredNames(more) {
          forall i, j | 0 <= i < j < |ds| ensures ds[i].name != ds[j].name {
            if i == 0 {
              assert ds[j].name == more[j - 1].name;
            } else {
              assert ds[i] == more[i - 1] && ds[j] == more[j - 1];
            }
          }
        }
        if WellDeclared(ds) {
          forall i | 0 <= i < |more| ensures more[i].name != d.name {
            assert ds[i + 1] == more[i];
          }
        }
      }
      if d.WordDeclare? && Classify(d.value).Ok? && d.name !in m {
        var m' := m[d.name := Classify(d.value).value];
        InsertAllSpec(m', more);
        if InsertAll(m', more).Ok? {
          var r := InsertAll(m', more).value;
          forall i | 0 <= i < |ds| ensures r[ds[i].name] == Classify(ds[i].value).value {
            if i > 0 {
              assert ds[i] == more[i - 1];
            }
          }
        }
      }
    }
  }

  /** `extract_name_map` succeeds exactly when every declaration is a word
      declaration of a known shape and no name is declared twice; then the
      map's keys are the declared names, and each maps to the classification
      of its own declaration's value. */
  lemma ExtractNameMapSpec(ds: seq<Ast.TopLevelNode>)
    ensures ExtractNameMap(ds).Ok? <==> WellDeclared(ds)
    ensures ExtractNameMap(ds).Ok? ==>
      ExtractNameMap(ds).value.Keys == DeclaredNames(ds)
      && (forall i | 0 <= i < |ds| :: ExtractNameMap(ds).value[ds[i].name] == Classify(ds[i].value).value)
  {
    InsertAllSpec(map[], ds);
  }

  /** The loop over `ds + more` is the loop over `ds`, continued over
      `more` from the map it built; a failure in `ds` is the result. */
  lemma {:induction false} InsertAllAppend(m: NameMap, ds: seq<Ast.TopLevelNode>, more: seq<Ast.TopLevelNode>)
    ensures InsertAll(m, ds + more) ==
      if InsertAll(m, ds).Ok? then InsertAll(InsertAll(m, ds).value, more) else InsertAll(m, ds)
    decreases |ds|
  {
    if ds == [] {
      assert ds + more == more;
    } else {
      assert (ds + more)[0] == ds[0] && (ds + more)[1..] == ds[1..] + more;
      match ds[0]
      case WordDeclare(name, value) =>
        if Classify(value).Ok? && name !in m {
          InsertAllAppend(m[name := Classify(value).value], ds[1..], more);
        }
      case Typing(_) =>
    }
  }

  /** A repeated name is never silently overwritten: a declaration whose
      name is already in the map panics once its value classifies. */
  lemma DuplicatePanics(m: NameMap, name: string, v: Ast.ASTNode, more: seq<Ast.TopLevelNode>)
    requires name in m && Classify(v).Ok?
    ensures InsertAll(m, [Ast.WordDeclare(name, v)] + more).Panic?
  {
    assert ([Ast.WordDeclare(name, v)] + more)[0] == Ast.WordDeclare(name, v);
  }

  /** A value of any other shape is an error, whatever the map holds. */
  lemma BadValueIsError(m: NameMap, name: string, v: Ast.ASTNode, more: seq<Ast.TopLevelNode>)
    requires !(v.Curly? || v.Ident? || v.NumericLiteral? || v.StringLiteral?)
    ensures InsertAll(m, [Ast.WordDeclare(name, v)] + more).Err?
  {
    assert ([Ast.WordDeclare(name, v)] + more)[0] == Ast.WordDeclare(name, v);
  }

  /** Typing declarations are not implemented, whatever the map holds. */
  lemma TypingPanics(m: NameMap, name: string, more: seq<Ast.TopLevelNode>)
    ensures InsertAll(m, [Ast.Typing(name)] + more).Panic?
  {
    assert ([Ast.Typing(name)] + more)[0] == Ast.Typing(name);
  }

  /** After any well-declared prefix, the next declaration decides the kind
      of failure: a typing declaration or a name declared earlier panics,
      and a value of an unknown shape is an error. */
  lemma FirstFailure(ds: seq<Ast.TopLevelNode>, d: Ast.TopLevelNode, more: seq<Ast.TopLevelNode>)
    requires WellDeclared(ds)
    ensures d.Typing? ==> ExtractNameMap(ds + [d] + more).Panic?
    ensures d.WordDeclare? && Classify(d.value).Err? ==> ExtractNameMap(ds + [d] + more).Err?
    ensures d.WordDeclare? && Classify(d.value).Ok? && d.name in DeclaredNames(ds) ==>
      ExtractNameMap(ds + [d] + more).Panic?
  {
    ExtractNameMapSpec(ds);
    var m := ExtractNameMap(ds).value;
    assert ds + [d] + more == ds + ([d] + more);
    InsertAllAppend(map[], ds, [d] + more);
    assert ExtractNameMap(ds + [d] + more) == InsertAll(m, [d] + more);
    match d
    case WordDeclare(name, v) =>
      if Classify(v).Err? {
        BadValueIsError(m, name, v, more);
      } else if name in DeclaredNames(ds) {
        DuplicatePanics(m, name, v, more);
      }
    case Typing(name) =>
      TypingPanics(m, name, more);
  }

  /** The test's program `@main { "Hello world!" . }` maps `main` to a word
      with that body, depending on `.` only. */
  lemma HelloWorldNameMap()
    ensures var body := [Ast.StringLiteral("Hello world!"), Ast.Ident(".")];
      ExtractNameMap([Ast.WordDeclare("main", Ast.Curly(body))]) == Ok(map["main" := Word(body, ["."])])
  {
    var body := [Ast.StringLiteral("Hello world!"), Ast.Ident(".")];
    DependsOnAppend([body[0]], [body[1]]);
    assert body == [body[0]] + [body[1]];
    assert DependsOn([body[0]]) == [] && DependsOn([body[1]]) == ["."];
    assert DependsOn(body) == [] + ["."] == ["."];
    var w := Word(body, ["."]);
    assert Classify(Ast.Curly(body)) == Ok(w);
    var ds := [Ast.WordDeclare("main", Ast.Curly(body))];
    assert ds[0] == Ast.WordDeclare("main", Ast.Curly(body)) && ds[1..] == [];
    assert InsertAll(map[], ds) == InsertAll(map["main" := w], []);
  }

  /** The test's program from its tokens on: `@main`, the braces around the
      string and the `.`, and the trailing comment build the one declaration,
      which maps as above. */
  lemma HelloWorldFromTokens()
    ensures var ts := [Tokenizer.AtSign, Tokenizer.Ident("main"), Tokenizer.Curly(true),
                       Tokenizer.StringLiteral("Hello world!"), Tokenizer.Ident("."), Tokenizer.Curly(false),
                       Tokenizer.Comment("; this be hello world")];
      var body := [Ast.StringLiteral("Hello world!"), Ast.Ident(".")];
      && Ast.BuildTree(ts) == Ok([Ast.WordDeclare("main", Ast.Curly(body))])
      && ExtractNameMap(Ast.BuildTree(ts).value) == Ok(map["main" := Word(body, ["."])])
  {
    var ts := [Tokenizer.AtSign, Tokenizer.Ident("main"), Tokenizer.Curly(true),
               Tokenizer.StringLiteral("Hello world!"), Tokenizer.Ident("."), Tokenizer.Curly(false),
               Tokenizer.Comment("; this be hello world")];
    var body := [Ast.StringLiteral("Hello world!"), Ast.Ident(".")];
    var ds := [Ast.WordDeclare("main", Ast.Curly(body))];
    assert Ast.Declarable(ds[0]);
    var cs := [Folding.StringLiteral("Hello world!"), Folding.Ident(".")];
    assert Ast.UnparseAll(body[1..]) == [Folding.Ident(".")] + Ast.UnparseAll([]);
    assert Ast.UnparseAll(body) == cs;
    assert Ast.Unparse(Ast.Curly(body)) == [Folding.Curly(cs)];
    assert ds[0].name == "main" && ds[0].value == Ast.Curly(body) && ds[1..] == [];
    var ns := Ast.UnparseTop(ds);
    assert ns == [Folding.AtSign, Folding.Ident("main")] + [Folding.Curly(cs)] + Ast.UnparseTop([]);
    assert ns == [Folding.AtSign, Folding.Ident("main"), Folding.Curly(cs)];
    var inner := [Tokenizer.StringLiteral("Hello world!"), Tokenizer.Ident(".")];
    assert Folding.Flatten(cs[1..]) == [Tokenizer.Ident(".")] + Folding.Flatten([]);
    assert Folding.Flatten(cs) == inner;
    assert Folding.Flatten(ns[2..]) == ([Tokenizer.Curly(true)] + inner + [Tokenizer.Curly(false)]) + Folding.Flatten([]);
    assert Folding.Flatten(ns[1..]) == [Tokenizer.Ident("main")] + Folding.Flatten(ns[2..]);
    assert Folding.Flatten(ns) == ts[..6];
    assert Folding.StripComments(ts[6..]) == [];
    assert Folding.StripComments(ts) == Folding.Flatten(ns) by {
      Folding.StripCommentsPrefix(ts, 6);
    }
    Folding.FoldOfNested(ts, ns);
    Ast.BuildTopUnparse(ds);
    HelloWorldNameMap();
  }
}

=== FILE: numeric_literal.dfy ===
/** The numeric-literal decoder of src/numeric_litteral.rs. A literal's text
    is a body followed by a suffix: `d` (a 64-bit float, rest ignored), `b` (a
    boolean, rest ignored), or one of `f`, `i`, `u` followed by an optional
    width; no suffix means a system-width signed integer. An integer body may
    be written `aEb`, meaning `a * 10^b`. */
module NumericLiterals {
  import opened Outcomes
  import opened Decimal

  /** An `f64` value, kept uninterpreted: the mantissa text and the decimal
      exponent it is scaled by (already cast to `i32`). */
  datatype F64 = F64(mantissa: string, exponent: int)

  datatype NumericLiteral =
    | Float(width: u8, payload: F64)
    | SysUint(uvalue: u64)
    | Uint(width: u8, uvalue: u64)
    | SysInt(ivalue: i64)
    | Int(width: u8, ivalue: i64)
    | Boolean(truth: bool)

  /** `ExtractSignatureAndVolumeResult`: the suffix letter, with the width
      ("volume") when one was given or implied. */
  datatype Suffix = Signature(sig: char) | SignatureAndVolume(sig: char, volume: u8)

  // ----- integer bodies -----

  function Pow10(e: nat): (p: nat)
    ensures p >= 1
  {
    if e == 0 then 1 else 10 * Pow10(e - 1)
  }

  /** Rust's `b as u32` on a `u64`: the low 32 bits. */
  function AsU32(b: u64): u32 {
    b % 0x1_0000_0000
  }

  /** Rust's `b as i32` on an `i64`: the low 32 bits, read as two's complement. */
  function AsI32(b: i64): (r: int)
    ensures -0x8000_0000 <= r < 0x8000_0000
    ensures -0x8000_0000 <= b < 0x8000_0000 ==> r == b
    ensures (r - b) % 0x1_0000_0000 == 0
  {
    (b + 0x8000_0000) % 0x1_0000_0000 - 0x8000_0000
  }

  /** `a * 10u64.pow(e)` in a debug build: an overflow of the power or of
      the product is a panic. */
  function ScaleU(a: u64, e: u32): (r: Outcome<u64>)
    ensures !r.Err?
    ensures r.Ok? <==> Pow10(e) < U64_LIMIT && a * Pow10(e) < U64_LIMIT
    ensures r.Ok? ==> r.value == a * Pow10(e)
  {
    var p := Pow10(e);
    if p >= U64_LIMIT then Panic("attempt to multiply with overflow")
    else if a * p >= U64_LIMIT then Panic("attempt to multiply with overflow")
    else Ok(a * p)
  }

  /** `a * 10i64.pow(e)` in a debug build. */
  function ScaleI(a: i64, e: u32): (r: Outcome<i64>)
    ensures !r.Err?
    ensures r.Ok? <==> Pow10(e) < I64_LIMIT && -I64_LIMIT <= a * Pow10(e) < I64_LIMIT
    ensures r.Ok? ==> r.value == a * Pow10(e)
  {
    var p := Pow10(e);
    if p >= I64_LIMIT then Panic("attempt to multiply with overflow")
    else if !(-I64_LIMIT <= a * p < I64_LIMIT) then Panic("attempt to multiply with overflow")
    else Ok(a * p)
  }

  /** `parse_u`: the body splits at its first `E`; both halves must read as
      `u64`, and the exponent is cast to `u32`. */
  function ParseU(s: string): (r: Outcome<u64>)
    ensures r.Panic? ==> 'E' in s
    ensures !r.Err? <==>
      var k := IndexOf(s, 'E');
      if k == |s| then ParseU64(s).Ok? else ParseU64(s[..k]).Ok? && ParseU64(s[k + 1..]).Ok?
  {
    var k := IndexOf(s, 'E');
    if k == |s| then ParseU64(s)
    else
      var a :- ParseU64(s[..k]);
      var b :- ParseU64(s[k + 1..]);
      ScaleU(a, AsU32(b))
  }

  /** `parse_i`: as `parse_u`, but the part before `E` reads as `i64`; the
      exponent is still unsigned. */
  function ParseI(s: string): (r: Outcome<i64>)
    ensures r.Panic? ==> 'E' in s
    ensures !r.Err? <==>
      var k := IndexOf(s, 'E');
      if k == |s| then ParseI64(s).Ok? else ParseI64(s[..k]).Ok? && ParseU64(s[k + 1..]).Ok?
  {
    var k := IndexOf(s, 'E');
    if k == |s| then ParseI64(s)
    else
      var a :- ParseI64(s[..k]);
      var b :- ParseU64(s[k + 1..]);
      ScaleI(a, AsU32(b))
  }

  /** The message of Rust's `ParseFloatError`. */
  function FloatError(t: string): string {
    if t == [] then "cannot parse float from empty string" else "invalid float literal"
  }

  /** `parse_f`: as `parse_i`, with an `f64` mantissa; only whether each part
      is accepted is modelled, not the floating-point value. */
  function ParseF(s: string): (r: Outcome<F64>)
    ensures !r.Panic?
    ensures r.Ok? <==>
      var k := IndexOf(s, 'E');
      if k == |s| then IsF64Text(s) else IsF64Text(s[..k]) && ParseI64(s[k + 1..]).Ok?
  {
    var k := IndexOf(s, 'E');
    if k == |s| then
      if IsF64Text(s) then Ok(F64(s, 0)) else Err(FloatError(s))
    else if !IsF64Text(s[..k]) then Err(FloatError(s[..k]))
    else
      var b :- ParseI64(s[k + 1..]);
      Ok(F64(s[..k], AsI32(b)))
  }

  // ----- the suffix -----

  predicate IsSignatureChar(c: char) {
    c == 'd' || c == 'b' || c == 'f' || c == 'i' || c == 'u'
  }

  /** Text in which no suffix letter occurs. */
  predicate Plain(s: string) {
    forall j | 0 <= j < |s| :: !IsSignatureChar(s[j])
  }

  /** Where the suffix starts: the first suffix letter, or `|s|`. */
  function FirstSignature(s: string): (k: nat)
    ensures k <= |s|
    ensures Plain(s[..k])
    ensures k < |s| ==> IsSignatureChar(s[k])
    decreases |s|
  {
    if s == [] then 0
    else if IsSignatureChar(s[0]) then 0
    else
      var k := 1 + FirstSignature(s[1..]);
      assert s[..k] == [s[0]] + s[1..][..k - 1];
      k
  }

  /** The suffixes `from_str` knows what to do with. */
  predicate Handled(x: Suffix) {
    match x
    case Signature(c) => c == 'u' || c == 'i' || c == 'b'
    case SignatureAndVolume(c, _) => c == 'u' || c == 'i' || c == 'f'
  }

  /** What `extract_signature_and_volume_and_base` computes, stated by where
      the first suffix letter is: the body is everything before it, and after
      `f`, `i` or `u` everything else is width text. */
  function SplitSuffix(s: string): (r: Outcome<(string, Suffix)>)
    ensures !r.Panic?
    ensures r.Ok? ==> Handled(r.value.1)
    ensures r.Ok? ==> Plain(r.value.0) && r.value.0 <= s
  {
    var k := FirstSignature(s);
    var base := s[..k];
    if k == |s| then Ok((base, Signature('i')))
    else if s[k] == 'd' then Ok((base, SignatureAndVolume('f', 64)))
    else if s[k] == 'b' then Ok((base, Signature('b')))
    else if k + 1 == |s| then
      Ok((base, if s[k] == 'f' then SignatureAndVolume('f', 32) else Signature(s[k])))
    else
      var w :- ParseU8(s[k + 1..]);
      Ok((base, SignatureAndVolume(s[k], w)))
  }

  /** The loop of `extract_signature_and_volume_and_base`, character by
      character: before a signature is seen, `d` and `b` return at once,
      `f`/`i`/`u` set it, anything else joins the body; after it, every
      character joins the width text. */
  method ExtractSignatureAndVolumeAndBase(s: string) returns (r: Outcome<(string, Suffix)>)
    ensures r == SplitSuffix(s)
  {
    ghost var k := FirstSignature(s);
    var found := false;
    var signature := 'i';
    var volume := "";
    var base := "";
    var i := 0;
    while i < |s|
      invariant 0 <= i <= |s|
      invariant !found ==> i <= k && base == s[..i] && volume == ""
      invariant found ==> k < i && base == s[..k]
      invariant found ==> signature == s[k] && (signature == 'f' || signature == 'i' || signature == 'u')
      invariant found ==> volume == s[k + 1..i]
    {
      var c := s[i];
      assert forall j | 0 <= j < k :: s[..k][j] == s[j];
      if found {
        assert s[k + 1..i + 1] == s[k + 1..i] + [c];
        volume := volume + [c];
      } else if c == 'd' || c == 'b' {
        return if c == 'd' then Ok((base, SignatureAndVolume('f', 64))) else Ok((base, Signature('b')));
      } else if c == 'f' || c == 'i' || c == 'u' {
        signature := c;
        found := true;
      } else {
        assert s[..i + 1] == s[..i] + [c];
        base := base + [c];
      }
      i := i + 1;
    }
    if !found {
      return Ok((base, Signature('i')));
    }
    if |volume| == 0 {
      return Ok((base, if signature == 'f' then SignatureAndVolume('f', 32) else Signature(signature)));
    }
    assert volume == s[k + 1..];
    var w :- ParseU8(volume);
    return Ok((base, SignatureAndVolume(signature, w)));
  }

  // ----- decoding and encoding -----

  /** A rendered integer holds no suffix letter and no `E`. */
  lemma PlainNumber(i: int)
    ensures Plain(NatToString(if i < 0 then -i else i)) && Plain(IntToString(i))
    ensures 'E' !in NatToString(if i < 0 then -i else i) && 'E' !in IntToString(i)
  {
    var d := NatToString(if i < 0 then -i else i);
    assert forall j | 0 <= j < |d| :: IsDigit(d[j]);
    if i < 0 {
      assert IntToString(i) == "-" + d;
    }
  }

  /** The suffix starts at the first suffix letter after plain text. */
  lemma FirstSignatureAt(p: string, c: char, rest: string)
    requires Plain(p) && IsSignatureChar(c)
    ensures FirstSignature(p + [c] + rest) == |p|
  {
    var s := p + [c] + rest;
    var k := FirstSignature(s);
    assert s[|p|] == c;
    assert forall j | 0 <= j < |p| :: s[j] == p[j];
  }

  /** `NumericLiteral::from_str`. */
  function FromStr(s: string): (r: Outcome<NumericLiteral>)
    ensures r.Panic? ==> 'E' in s
  {
    var split :- SplitSuffix(s);
    var base := split.0;
    match split.1
    case Signature('u') =>
      var n :- ParseU(base);
      Ok(SysUint(n))
    case Signature('i') =>
      var n :- ParseI(base);
      Ok(SysInt(n))
    case Signature('b') =>
      Ok(Boolean(base != "0"))
    case SignatureAndVolume('u', w) =>
      var n :- ParseU(base);
      Ok(Uint(w, n))
    case SignatureAndVolume('i', w) =>
      var n :- ParseI(base);
      Ok(Int(w, n))
    case SignatureAndVolume('f', w) =>
      var x :- ParseF(base);
      Ok(Float(w, x))
    case _ =>
      assert false;
      Panic("Unimplemented literal")
  }

  /** `NumericLiteral::to_string`, except for `Float`, whose value is not
      modelled. */
  function ToString(v: NumericLiteral): (r: string)
    requires !v.Float?
    ensures FirstSignature(r) < |r|
  {
    match v
    case SysUint(n) =>
      PlainNumber(n);
      FirstSignatureAt(NatToString(n), 'u', []);
      NatToString(n) + "u"
    case SysInt(n) =>
      PlainNumber(n);
      FirstSignatureAt(IntToString(n), 'i', []);
      IntToString(n) + "i"
    case Uint(w, n) =>
      PlainNumber(n);
      FirstSignatureAt(NatToString(n), 'u', NatToString(w));
      NatToString(n) + "u" + NatToString(w)
    case Int(w, n) =>
      PlainNumber(n);
      FirstSignatureAt(IntToString(n), 'i', NatToString(w));
      IntToString(n) + "i" + NatToString(w)
    case Boolean(b) => if b then "1b" else "0b"
  }

  // ----- properties of from_str -----

  /** Text with no suffix letter is a system-width signed integer. */
  lemma FromStrNoSuffix(s: string)
    requires Plain(s)
    ensures FromStr(s) == MapOk(ParseI(s), n => SysInt(n))
  {
    assert s[..|s|] == s;
  }

  /** A `b` before any other suffix letter makes a boolean that is false
      exactly when the body is `0`; whatever follows the `b` is ignored. */
  lemma FromStrBoolean(p: string, t: string)
    requires Plain(p)
    ensures FromStr(p + "b" + t) == Ok(Boolean(p != "0"))
  {
    FirstSignatureAt(p, 'b', t);
    assert (p + "b" + t)[..|p|] == p;
  }

  /** A `d` before any other suffix letter makes a 64-bit float of the body;
      whatever follows the `d` is ignored. */
  lemma FromStrDouble(p: string, t: string)
    requires Plain(p)
    ensures FromStr(p + "d" + t) == MapOk(ParseF(p), x => Float(64, x))
  {
    FirstSignatureAt(p, 'd', t);
    assert (p + "d" + t)[..|p|] == p;
  }

  /** `u`, `i` or `f` with nothing after it: the system-width integer, or a
      32-bit float. */
  lemma FromStrNoWidth(p: string, c: char)
    requires Plain(p)
    ensures c == 'u' ==> FromStr(p + [c]) == MapOk(ParseU(p), n => SysUint(n))
    ensures c == 'i' ==> FromStr(p + [c]) == MapOk(ParseI(p), n => SysInt(n))
    ensures c == 'f' ==> FromStr(p + [c]) == MapOk(ParseF(p), x => Float(32, x))
  {
    if IsSignatureChar(c) {
      FirstSignatureAt(p, c, []);
      assert p + [c] + [] == p + [c] && (p + [c])[..|p|] == p;
    }
  }

  /** After `u`, `i` or `f`, all the remaining text is the width, which must
      read as a `u8`; if it does not, the literal is an error whatever its
      body. */
  lemma FromStrWidth(p: string, c: char, w: string)
    requires Plain(p) && w != []
    requires c == 'u' || c == 'i' || c == 'f'
    ensures ParseU8(w).Err? ==> FromStr(p + [c] + w).Err?
    ensures ParseU8(w).Ok? && c == 'u' ==>
      FromStr(p + [c] + w) == MapOk(ParseU(p), n => Uint(ParseU8(w).value, n))
    ensures ParseU8(w).Ok? && c == 'i' ==>
      FromStr(p + [c] + w) == MapOk(ParseI(p), n => Int(ParseU8(w).value, n))
    ensures ParseU8(w).Ok? && c == 'f' ==>
      FromStr(p + [c] + w) == MapOk(ParseF(p), x => Float(ParseU8(w).value, x))
  {
    var s := p + [c] + w;
    FirstSignatureAt(p, c, w);
    assert s[..|p|] == p && s[|p| + 1..] == w;
  }

  /** A rendered number reads back through `parse_u`. */
  lemma ParseUOfNumber(n: u64)
    ensures ParseU(NatToString(n)) == Ok(n)
  {
    PlainNumber(n);
    ParseUnsignedRoundTrip(n, U64_LIMIT);
  }

  /** A rendered number reads back through `parse_i`. */
  lemma ParseIOfNumber(n: i64)
    ensures ParseI(IntToString(n)) == Ok(n)
  {
    PlainNumber(n);
    ParseSignedRoundTrip(n, I64_LIMIT);
  }

  /** `aEb` is `a` scaled by ten to the power `b`, `b` taken modulo 2^32. */
  lemma ParseUScientific(a: u64, e: u64)
    ensures ParseU(NatToString(a) + "E" + NatToString(e)) == ScaleU(a, AsU32(e))
  {
    var x, y := NatToString(a), NatToString(e);
    var s := x + "E" + y;
    PlainNumber(a);
    IndexOfAt(x, 'E', y);
    assert s[..|x|] == x && s[|x| + 1..] == y;
    ParseUnsignedRoundTrip(a, U64_LIMIT);
    ParseUnsignedRoundTrip(e, U64_LIMIT);
  }

  /** `aEb` for a signed body. */
  lemma ParseIScientific(a: i64, e: u64)
    ensures ParseI(IntToString(a) + "E" + NatToString(e)) == ScaleI(a, AsU32(e))
  {
    var x, y := IntToString(a), NatToString(e);
    var s := x + "E" + y;
    PlainNumber(a);
    IndexOfAt(x, 'E', y);
    assert s[..|x|] == x && s[|x| + 1..] == y;
    ParseSignedRoundTrip(a, I64_LIMIT);
    ParseUnsignedRoundTrip(e, U64_LIMIT);
  }

  /** The exponent is unsigned, so a negative one is an error, never a
      default. */
  lemma NegativeExponent(a: string, t: string)
    requires 'E' !in a
    ensures ParseU(a + "E-" + t).Err? && ParseI(a + "E-" + t).Err?
  {
    var s := a + "E-" + t;
    IndexOfAt(a, 'E', "-" + t);
    assert s == a + ['E'] + ("-" + t);
    assert s[|a| + 1..] == "-" + t;
    ParseUnsignedRejectsMinus(t, U64_LIMIT);
  }

  /** Decoding what `to_string` writes gives back the literal. */
  lemma FromStrToString(v: NumericLiteral)
    requires !v.Float?
    ensures FromStr(ToString(v)) == Ok(v)
  {
    match v
    case SysUint(n) =>
      PlainNumber(n);
      ParseUOfNumber(n);
      FromStrNoWidth(NatToString(n), 'u');
    case SysInt(n) =>
      PlainNumber(n);
      ParseIOfNumber(n);
      FromStrNoWidth(IntToString(n), 'i');
    case Uint(w, n) =>
      PlainNumber(n);
      ParseUOfNumber(n);
      ParseUnsignedRoundTrip(w, U8_LIMIT);
      FromStrWidth(NatToString(n), 'u', NatToString(w));
    case Int(w, n) =>
      PlainNumber(n);
      ParseIOfNumber(n);
      ParseUnsignedRoundTrip(w, U8_LIMIT);
      FromStrWidth(IntToString(n), 'i', NatToString(w));
    case Boolean(b) =>
      FromStrBoolean(if b then "1" else "0", []);
      assert (if b then "1b" else "0b") == (if b then "1" else "0") + "b" + [];
  }

  /** A suffix-free `aEb` literal is the signed integer `a * 10^b` (so
      `2E3i` and `2E3` are both `SysInt(2000)`), or a panic on overflow. */
  lemma FromStrScientific(a: i64, e: u64)
    ensures FromStr(IntToString(a) + "E" + NatToString(e)) == MapOk(ScaleI(a, AsU32(e)), n => SysInt(n))
    ensures FromStr(IntToString(a) + "E" + NatToString(e) + "i") == MapOk(ScaleI(a, AsU32(e)), n => SysInt(n))
  {
    var x, y := IntToString(a), NatToString(e);
    PlainNumber(a);
    PlainNumber(e);
    assert Plain(x + "E" + y);
    FromStrNoSuffix(x + "E" + y);
    FromStrNoWidth(x + "E" + y, 'i');
    ParseIScientific(a, e);
  }
}

=== FILE: outcome.dfy ===
/** The result of one front-end stage. The Rust code has two ways to fail:
    an `anyhow` error returned with `bail!` or `?` (modelled as `Err`), and an
    abort through `panic!`, `todo!()` or a debug-build arithmetic overflow
    (modelled as `Panic`). Both carry the message text of the source for
    the reader; no contract depends on the text. */
module Outcomes {

  datatype Outcome<+T> = Ok(value: T) | Err(msg: string) | Panic(msg: string) {

    predicate IsFailure() {
      !Ok?
    }

    /** Re-types a failure, keeping whether it was an error or a panic. */
    function PropagateFailure<U>(): (r: Outcome<U>)
      requires !Ok?
      ensures r.Err? == Err? && r.Panic? == Panic?
    {
      if Err? then Err(msg) else Panic(msg)
    }

    function Extract(): T
      requires Ok?
    {
      value
    }
  }

  /** Applies `f` to a success; a failure passes through. */
  function MapOk<T, U>(r: Outcome<T>, f: T -> U): Outcome<U> {
    if r.Ok? then Ok(f(r.value)) else r.PropagateFailure()
  }

  /** Puts `xs` in front of a successful sequence; a failure passes through. */
  function Prepend<T>(xs: seq<T>, r: Outcome<seq<T>>): Outcome<seq<T>> {
    if r.Ok? then Ok(xs + r.value) else r
  }

  lemma PrependTwice<T>(xs: seq<T>, ys: seq<T>, r: Outcome<seq<T>>)
    ensures Prepend(xs, Prepend(ys, r)) == Prepend(xs + ys, r)
  {
    if r.Ok? {
      assert xs + (ys + r.value) == (xs + ys) + r.value;
    }
  }
}

=== FILE: tokenizer.dfy ===
/** The lexer of src/tokenizer.rs. The Rust code walks a peekable character
    stream; here every scanner takes the remaining input and returns what it
    read together with the input it left, so "consumed" means "no longer in the
    returned rest". */
module Tokenizer {
  import opened Outcomes

  datatype Token =
    | Comment(text: string)
    | Ident(name: string)
    | NumericLiteral(text: string)
    | CharLiteral(c: char)
    | StringLiteral(text: string)
    | Dollar
    | Colon
    | Octothorp
    | AtSign
    | QMark
    | Square(open: bool)  // true = `[`, false = `]`
    | Curly(open: bool)   // true = `{`, false = `}`

  // ----- character classes -----

  /** Rust's `char::is_whitespace`: the Unicode White_Space property. */
  predicate IsWhitespace(c: char) {
    var n := c as int;
    (0x09 <= n <= 0x0D) || n == 0x20 || n == 0x85 || n == 0xA0 || n == 0x1680
    || (0x2000 <= n <= 0x200A) || n == 0x2028 || n == 0x2029 || n == 0x202F
    || n == 0x205F || n == 0x3000
  }

  predicate IsBracket(c: char) {
    c == '[' || c == ']' || c == '{' || c == '}'
  }

  predicate IsSigil(c: char) {
    c == '$' || c == ':' || c == '#' || c == '@' || c == '?'
  }

  /** The characters `numeric_tokenize` keeps taking. */
  predicate IsNumericChar(c: char) {
    '0' <= c <= '9' || c == '-' || c == '.' || c == 'E'
    || c == 'd' || c == 'b' || c == 'f' || c == 'i' || c == 'u'
  }

  /** The characters on which the main loop starts a numeric literal. */
  predicate StartsNumber(c: char) {
    '0' <= c <= '9' || c == '-'
  }

  /** The characters `ident_tokenizer` keeps taking. */
  predicate IsIdentChar(c: char) {
    !IsWhitespace(c) && !IsBracket(c)
  }

  /** The characters on which the main loop falls through to `ident_tokenizer`. */
  predicate StartsIdent(c: char) {
    IsIdentChar(c) && !IsSigil(c) && c != ';' && c != '"' && c != '\'' && !StartsNumber(c)
  }

  predicate NotNewline(c: char) {
    c != '\n'
  }

  // ----- scanners -----

  /** The longest prefix of `s` whose characters all satisfy `p`, and the rest. */
  function Span(s: string, p: char -> bool): (r: (string, string))
    ensures r.0 + r.1 == s
    ensures forall i | 0 <= i < |r.0| :: p(r.0[i])
    ensures r.1 == [] || !p(r.1[0])
    decreases |s|
  {
    if s == [] || !p(s[0]) then ([], s)
    else
      var (a, b) := Span(s[1..], p);
      ([s[0]] + a, b)
  }

  /** `Span` is determined by the split: a prefix of `p`-characters that the
      rest cannot extend is exactly what `Span` takes. */
  lemma {:induction false} SpanOfMaximalPrefix(a: string, rest: string, p: char -> bool)
    requires forall i | 0 <= i < |a| :: p(a[i])
    requires rest == [] || !p(rest[0])
    ensures Span(a + rest, p) == (a, rest)
    decreases |a|
  {
    if a != [] {
      assert (a + rest)[0] == a[0] && (a + rest)[1..] == a[1..] + rest;
      assert p(a[0]);
      SpanOfMaximalPrefix(a[1..], rest, p);
      assert [a[0]] + a[1..] == a;
    } else {
      assert a + rest == rest;
    }
  }

  /** `escape_char`: `s` starts at the backslash; the character after it
      selects the escape. The escaped character itself is left for the
      caller to consume. */
  function EscapeChar(s: string): (r: Outcome<char>)
    requires |s| > 0 && s[0] == '\\'
    ensures !r.Err?
    ensures r.Ok? ==> |s| >= 2 && r.value == (if s[1] == 'r' then '\r' else '\n')
    ensures r.Panic? <==> |s| < 2 || (s[1] != 'n' && s[1] != 'r' && s[1] != '\n')
  {
    if |s| < 2 then Panic("not yet implemented")
    else match s[1]
      case 'n' => Ok('\n')
      case 'r' => Ok('\r')
      case '\n' => Ok('\n')
      case _ => Panic("not yet implemented")
  }

  /** `numeric_tokenize`: the maximal run of numeric characters. */
  function NumericTokenize(s: string): (r: (Token, string))
    requires |s| > 0 && StartsNumber(s[0])
    ensures r.0.NumericLiteral? && r.0.text + r.1 == s
    ensures |r.0.text| > 0
    ensures forall i | 0 <= i < |r.0.text| :: IsNumericChar(r.0.text[i])
    ensures r.1 == [] || !IsNumericChar(r.1[0])
  {
    var (text, rest) := Span(s, IsNumericChar);
    (NumericLiteral(text), rest)
  }

  /** `ident_tokenizer`: everything up to whitespace or a bracket. */
  function IdentTokenize(s: string): (r: (Token, string))
    requires |s| > 0 && IsIdentChar(s[0])
    ensures r.0.Ident? && r.0.name + r.1 == s
    ensures |r.0.name| > 0
    ensures forall i | 0 <= i < |r.0.name| :: IsIdentChar(r.0.name[i])
    ensures r.1 == [] || IsWhitespace(r.1[0]) || IsBracket(r.1[0])
  {
    var (name, rest) := Span(s, IsIdentChar);
    (Ident(name), rest)
  }

  /** `comment_tokenizer`: from the `;` up to, not including, the next newline. */
  function CommentTokenize(s: string): (r: (Token, string))
    requires |s| > 0 && s[0] == ';'
    ensures r.0.Comment? && r.0.text + r.1 == s
    ensures |r.0.text| > 0 && r.0.text[0] == ';'
    ensures '\n' !in r.0.text
    ensures r.1 == [] || r.1[0] == '\n'
  {
    var (text, rest) := Span(s, NotNewline);
    assert forall i | 0 <= i < |text| :: text[i] != '\n';
    (Comment(text), rest)
  }

  /** The loop of `string_tokenizer`, from just after the opening quote:
      the decoded contents and the input from the closing quote on. */
  function StringBody(s: string): (r: Outcome<(string, string)>)
    ensures !r.Err?
    ensures r.Ok? ==> |r.value.1| > 0 && r.value.1[0] == '"' && |r.value.1| <= |s|
    ensures r.Ok? ==> r.value.1 == s[|s| - |r.value.1|..]
    ensures r.Ok? ==> '"' !in r.value.0
    ensures r.Ok? ==> forall i | 0 <= i < |s| - |r.value.1| :: s[i] != '"'
    decreases |s|
  {
    if s == [] then Panic("not yet implemented")
    else if s[0] == '"' then Ok(([], s))
    else if s[0] == '\\' then
      var c :- EscapeChar(s);
      var tail :- StringBody(s[2..]);
      Ok(([c] + tail.0, tail.1))
    else
      var tail :- StringBody(s[1..]);
      Ok(([s[0]] + tail.0, tail.1))
  }

  /** `string_tokenizer`: `s` starts at the opening quote; the closing quote
      is left for the main loop to consume. */
  function StringTokenize(s: string): (r: Outcome<(Token, string)>)
    requires |s| > 0 && s[0] == '"'
    ensures !r.Err?
    ensures r.Ok? ==> r.value.0.StringLiteral? && '"' !in r.value.0.text
    ensures r.Ok? ==> |r.value.1| > 0 && r.value.1[0] == '"' && |r.value.1| < |s|
    ensures r.Ok? ==> r.value.1 == s[|s| - |r.value.1|..]
  {
    var body :- StringBody(s[1..]);
    Ok((StringLiteral(body.0), body.1))
  }

  /** `char_tokenizer`: `s` starts at the opening quote; exactly one character,
      possibly escaped, is read. The closing quote is never checked: the main
      loop skips whatever character comes next. */
  function CharTokenize(s: string): (r: Outcome<(Token, string)>)
    requires |s| > 0 && s[0] == '\''
    ensures !r.Err?
    ensures r.Panic? <==> |s| < 2 || (s[1] == '\\' && EscapeChar(s[1..]).Panic?)
    ensures r.Ok? ==> r.value.0.CharLiteral?
    ensures r.Ok? && s[1] != '\\' ==> r.value == (CharLiteral(s[1]), s[2..])
    ensures r.Ok? && s[1] == '\\' ==> r.value.1 == s[3..]
  {
    var t := s[1..];
    if t == [] then Panic("Unimplemented")
    else if t[0] == '\\' then
      var c :- EscapeChar(t);
      Ok((CharLiteral(c), t[2..]))
    else Ok((CharLiteral(t[0]), t[1..]))
  }

  /** The first nine arms of the main loop's `match`: one token per sigil
      or bracket character. */
  function SingleCharToken(c: char): Token
    requires IsSigil(c) || IsBracket(c)
  {
    match c
    case '$' => Dollar
    case ':' => Colon
    case '#' => Octothorp
    case '@' => AtSign
    case '?' => QMark
    case '{' => Curly(true)
    case '}' => Curly(false)
    case '[' => Square(true)
    case _ => Square(false)
  }

  /** The `stream.next()` after the `match` of the main loop: drops one
      character when there is one. */
  function SkipOne(s: string): string {
    if s == [] then s else s[1..]
  }

  /** One iteration of the main loop of `tokenizer`. Every iteration consumes
      at least one character, so the loop terminates; it never reports an
      error, only panics. */
  function Step(s: string): (r: Outcome<(seq<Token>, string)>)
    requires |s| > 0
    ensures !r.Err?
    ensures r.Ok? ==> |r.value.1| < |s| && r.value.1 == s[|s| - |r.value.1|..]
    ensures r.Ok? ==> (r.value.0 == [] <==> IsWhitespace(s[0])) && |r.value.0| <= 1
  {
    var c := s[0];
    if IsWhitespace(c) then Ok(([], s[1..]))
    else if IsSigil(c) || IsBracket(c) then Ok(([SingleCharToken(c)], SkipOne(s)))
    else if c == ';' then
      var (t, rest) := CommentTokenize(s);
      Ok(([t], SkipOne(rest)))
    else if c == '"' then
      var p :- StringTokenize(s);
      Ok(([p.0], SkipOne(p.1)))
    else if c == '\'' then
      var p :- CharTokenize(s);
      Ok(([p.0], SkipOne(p.1)))
    else if StartsNumber(c) then
      var (t, rest) := NumericTokenize(s);
      Ok(([t], rest))
    else
      var (t, rest) := IdentTokenize(s);
      Ok(([t], rest))
  }

  /** The shape every token the lexer produces has. */
  predicate WellFormed(t: Token) {
    match t
    case Comment(text) => |text| > 0 && text[0] == ';' && '\n' !in text
    case Ident(name) =>
      |name| > 0 && StartsIdent(name[0]) && forall i | 0 <= i < |name| :: IsIdentChar(name[i])
    case NumericLiteral(text) =>
      |text| > 0 && StartsNumber(text[0]) && forall i | 0 <= i < |text| :: IsNumericChar(text[i])
    case StringLiteral(text) => '"' !in text
    case _ => true
  }

  /** `tokenizer`: the whole input as a token sequence. Its only failures are
      panics; every token it returns is well formed. */
  function Tokenize(s: string): (r: Outcome<seq<Token>>)
    ensures !r.Err?
    ensures r.Ok? ==> forall i | 0 <= i < |r.value| :: WellFormed(r.value[i])
    decreases |s|
  {
    if s == [] then Ok([])
    else
      var step :- Step(s);
      Prepend(step.0, Tokenize(step.1))
  }

  // ----- what one piece of input becomes -----

  lemma TokenizeByStep(s: string, ts: seq<Token>, rest: string)
    requires |s| > 0 && Step(s) == Ok((ts, rest))
    ensures Tokenize(s) == Prepend(ts, Tokenize(rest))
  {
  }

  /** Whitespace yields no token. */
  lemma TokenizeSkipsWhitespace(c: char, rest: string)
    requires IsWhitespace(c)
    ensures Tokenize([c] + rest) == Tokenize(rest)
  {
    var s := [c] + rest;
    assert s[0] == c && s[1..] == rest;
    assert Step(s) == Ok(([], rest));
    TokenizeByStep(s, [], rest);
    if Tokenize(rest).Ok? {
      assert [] + Tokenize(rest).value == Tokenize(rest).value;
    }
  }

  /** Each of the five sigils and four bracket characters yields exactly one
      token: the sigil's own token, or a bracket token of its kind marked open
      or close (the table `SingleCharToken`). */
  lemma TokenizeSingleChar(c: char, rest: string)
    requires IsSigil(c) || IsBracket(c)
    ensures Tokenize([c] + rest) == Prepend([SingleCharToken(c)], Tokenize(rest))
  {
    var s := [c] + rest;
    assert s[0] == c && s[1..] == rest;
    assert Step(s) == Ok(([SingleCharToken(c)], rest));
    TokenizeByStep(s, [SingleCharToken(c)], rest);
  }

  /** A maximal run of numeric characters starting with a digit or `-`
      becomes exactly one numeric-literal token holding that run. */
  lemma TokenizeNumber(a: string, rest: string)
    requires |a| > 0 && StartsNumber(a[0])
    requires forall i | 0 <= i < |a| :: IsNumericChar(a[i])
    requires rest == [] || !IsNumericChar(rest[0])
    ensures Tokenize(a + rest) == Prepend([NumericLiteral(a)], Tokenize(rest))
  {
    StepNumber(a, rest);
    TokenizeByStep(a + rest, [NumericLiteral(a)], rest);
  }

  /** One loop iteration reads a maximal numeric run. */
  lemma StepNumber(a: string, rest: string)
    requires |a| > 0 && StartsNumber(a[0])
    requires forall i | 0 <= i < |a| :: IsNumericChar(a[i])
    requires rest == [] || !IsNumericChar(rest[0])
    ensures Step(a + rest) == Ok(([NumericLiteral(a)], rest))
  {
    var s := a + rest;
    assert s[0] == a[0];
    SpanOfMaximalPrefix(a, rest, IsNumericChar);
    assert NumericTokenize(s) == (NumericLiteral(a), rest);
  }

  /** A run of non-whitespace, non-bracket characters that starts with an
      identifier character becomes exactly one identifier token; sigils and
      quotes after the first position stay inside it. */
  lemma TokenizeIdent(a: string, rest: string)
    requires |a| > 0 && StartsIdent(a[0])
    requires forall i | 0 <= i < |a| :: IsIdentChar(a[i])
    requires rest == [] || !IsIdentChar(rest[0])
    ensures Tokenize(a + rest) == Prepend([Ident(a)], Tokenize(rest))
  {
    assert (a + rest)[0] == a[0];
    SpanOfMaximalPrefix(a, rest, IsIdentChar);
  }

  /** A comment token runs from its `;` to the end of the line; the newline
      that ends it is consumed with it. */
  lemma TokenizeComment(a: string, rest: string)
    requires |a| > 0 && a[0] == ';' && '\n' !in a
    ensures Tokenize(a) == Ok([Comment(a)])
    ensures Tokenize(a + "\n" + rest) == Prepend([Comment(a)], Tokenize(rest))
  {
    TokenizeCommentAtEnd(a);
    TokenizeCommentLine(a, rest);
  }

  lemma TokenizeCommentAtEnd(a: string)
    requires |a| > 0 && a[0] == ';' && '\n' !in a
    ensures Tokenize(a) == Ok([Comment(a)])
  {
    assert forall i | 0 <= i < |a| :: NotNewline(a[i]);
    SpanOfMaximalPrefix(a, [], NotNewline);
    assert a + [] == a;
    assert Step(a) == Ok(([Comment(a)], []));
    TokenizeByStep(a, [Comment(a)], []);
    assert [Comment(a)] + [] == [Comment(a)];
  }

  lemma TokenizeCommentLine(a: string, rest: string)
    requires |a| > 0 && a[0] == ';' && '\n' !in a
    ensures Tokenize(a + "\n" + rest) == Prepend([Comment(a)], Tokenize(rest))
  {
    var s := a + ("\n" + rest);
    assert a + "\n" + rest == s;
    StepCommentLine(a, rest);
    TokenizeByStep(s, [Comment(a)], rest);
  }

  lemma StepCommentLine(a: string, rest: string)
    requires |a| > 0 && a[0] == ';' && '\n' !in a
    ensures Step(a + ("\n" + rest)) == Ok(([Comment(a)], rest))
  {
    assert forall i | 0 <= i < |a| :: NotNewline(a[i]);
    var s := a + ("\n" + rest);
    assert s[0] == ';';
    SpanOfMaximalPrefix(a, "\n" + rest, NotNewline);
    assert ("\n" + rest)[1..] == rest;
  }

  /** The escape table read backwards: newline and carriage return are
      written as `\n` and `\r`, every other character as itself. */
  function EscapeOne(c: char): string {
    if c == '\n' then "\\n" else if c == '\r' then "\\r" else [c]
  }

  function EscapeText(body: string): (r: string)
    ensures |r| >= |body|
    decreases |body|
  {
    if body == [] then [] else EscapeOne(body[0]) + EscapeText(body[1..])
  }

  /** Escaping works character by character. */
  lemma {:induction false} EscapeTextAppend(x: string, y: string)
    ensures EscapeText(x + y) == EscapeText(x) + EscapeText(y)
    decreases |x|
  {
    if x == [] {
      assert x + y == y;
    } else {
      assert (x + y)[0] == x[0] && (x + y)[1..] == x[1..] + y;
      EscapeTextAppend(x[1..], y);
    }
  }

  /** Text without a newline or carriage return is its own escaped form. */
  lemma {:induction false} EscapeTextPlain(x: string)
    requires '\n' !in x && '\r' !in x
    ensures EscapeText(x) == x
    decreases |x|
  {
    if x != [] {
      assert '\n' !in x[1..] && '\r' !in x[1..];
      EscapeTextPlain(x[1..]);
      assert [x[0]] + x[1..] == x;
    }
  }

  /** One character of a string body, escaped or not, reads back as itself. */
  lemma StringBodyOneChar(c: char, t: string)
    requires c != '"' && c != '\\'
    ensures StringBody(t).Ok? ==>
      StringBody(EscapeOne(c) + t) == Ok(([c] + StringBody(t).value.0, StringBody(t).value.1))
  {
    var s := EscapeOne(c) + t;
    if c == '\n' || c == '\r' {
      assert s[0] == '\\' && s[1] == (if c == '\n' then 'n' else 'r') && s[2..] == t;
    } else {
      assert s[0] == c && s[1..] == t;
    }
  }

  /** A character other than `"` and `\` is copied into the body as it
      stands, a raw line break included. */
  lemma StringBodyPlainChar(c: char, t: string)
    requires c != '"' && c != '\\'
    ensures StringBody([c] + t) == MapOk(StringBody(t), (p: (string, string)) => ([c] + p.0, p.1))
  {
    var s := [c] + t;
    assert s[0] == c && s[1..] == t;
  }

  lemma Regroup<T>(a: seq<T>, b: seq<T>, c: seq<T>, d: seq<T>)
    ensures (a + b) + c + d == a + ((b + c) + d)
  {
  }

  /** The string scanner undoes `EscapeText` and stops at the first quote. */
  lemma {:induction false} StringBodyOfEscaped(body: string, rest: string)
    requires '"' !in body && '\\' !in body
    ensures StringBody(EscapeText(body) + "\"" + rest) == Ok((body, "\"" + rest))
    decreases |body|
  {
    if body == [] {
      assert EscapeText(body) + "\"" + rest == "\"" + rest;
    } else {
      var c, more := body[0], body[1..];
      assert '"' !in more && '\\' !in more && c != '"' && c != '\\';
      var tail := EscapeText(more) + "\"" + rest;
      StringBodyOfEscaped(more, rest);
      assert EscapeText(body) == EscapeOne(c) + EscapeText(more);
      Regroup(EscapeOne(c), EscapeText(more), "\"", rest);
      StringBodyOneChar(c, tail);
      assert [c] + more == body;
    }
  }

  /** An escape in a string body puts its character in front of what the
      rest of the body reads as: LF for `\n` and for a backslash before a
      line break, CR for `\r`. */
  lemma StringBodyEscape(e: char, t: string)
    requires e == 'n' || e == 'r' || e == '\n'
    ensures StringBody(['\\', e] + t)
      == MapOk(StringBody(t), (p: (string, string)) => ([if e == 'r' then '\r' else '\n'] + p.0, p.1))
  {
    var s := ['\\', e] + t;
    assert s[0] == '\\' && s[1] == e && s[2..] == t;
  }

  /** A string that opens with a backslash before a line break reads that
      pair as one LF, followed by the rest of the body. */
  lemma TokenizeStringLineBreak(body: string, rest: string)
    requires '"' !in body && '\\' !in body
    ensures Tokenize(['"', '\\', '\n'] + EscapeText(body) + "\"" + rest)
      == Prepend([StringLiteral("\n" + body)], Tokenize(rest))
  {
    var inner := EscapeText(body) + "\"" + rest;
    var s := ['"', '\\', '\n'] + EscapeText(body) + "\"" + rest;
    assert s[0] == '"' && s[1..] == ['\\', '\n'] + inner;
    StringBodyOfEscaped(body, rest);
    StringBodyEscape('\n', inner);
    TokenizeQuoted(s, "\n" + body, rest);
  }

  /** Tokenizing from an opening quote whose body reads as `body` up to a
      closing quote. */
  lemma TokenizeQuoted(s: string, body: string, rest: string)
    requires |s| > 0 && s[0] == '"' && StringBody(s[1..]) == Ok((body, "\"" + rest))
    ensures Tokenize(s) == Prepend([StringLiteral(body)], Tokenize(rest))
  {
    StepQuoted(s, body, rest);
    TokenizeByStep(s, [StringLiteral(body)], rest);
  }

  lemma StepQuoted(s: string, body: string, rest: string)
    requires |s| > 0 && s[0] == '"' && StringBody(s[1..]) == Ok((body, "\"" + rest))
    ensures Step(s) == Ok(([StringLiteral(body)], rest))
  {
    assert SkipOne("\"" + rest) == rest;
  }

  /** A quoted, escaped string becomes one string-literal token with the
      unescaped contents, and its closing quote is consumed. */
  lemma TokenizeString(body: string, rest: string)
    requires '"' !in body && '\\' !in body
    ensures Tokenize("\"" + EscapeText(body) + "\"" + rest) == Prepend([StringLiteral(body)], Tokenize(rest))
  {
    var s := "\"" + EscapeText(body) + "\"" + rest;
    assert s[1..] == EscapeText(body) + "\"" + rest;
    StringBodyOfEscaped(body, rest);
    assert SkipOne("\"" + rest) == rest;
  }

  /** A char literal takes the one character after the quote and then skips
      one more character, whatever it is. */
  lemma TokenizeChar(c: char, q: char, rest: string)
    requires c != '\\'
    ensures Tokenize(['\'', c, q] + rest) == Prepend([CharLiteral(c)], Tokenize(rest))
  {
    var s := ['\'', c, q] + rest;
    assert s[1..][1..] == [q] + rest;
    assert SkipOne([q] + rest) == rest;
  }

  /** An escaped char literal: `\n`, `\r` and backslash-newline. */
  lemma TokenizeEscapedChar(e: char, q: char, rest: string)
    requires e == 'n' || e == 'r' || e == '\n'
    ensures Tokenize(['\'', '\\', e, q] + rest)
         == Prepend([CharLiteral(if e == 'r' then '\r' else '\n')], Tokenize(rest))
  {
    StepEscapedChar(e, q, rest);
    TokenizeByStep(['\'', '\\', e, q] + rest, [CharLiteral(if e == 'r' then '\r' else '\n')], rest);
  }

  /** One loop iteration reads an escaped char literal. */
  lemma StepEscapedChar(e: char, q: char, rest: string)
    requires e == 'n' || e == 'r' || e == '\n'
    ensures Step(['\'', '\\', e, q] + rest) == Ok(([CharLiteral(if e == 'r' then '\r' else '\n')], rest))
  {
    var s := ['\'', '\\', e, q] + rest;
    assert s[1..][2..] == [q] + rest;
    assert SkipOne([q] + rest) == rest;
  }

  // ----- the panics -----

  /** A string without a closing quote panics. */
  lemma {:induction false} StringBodyUnterminated(s: string)
    requires '"' !in s
    ensures StringBody(s).Panic?
    decreases |s|
  {
    if s != [] && s[0] != '\\' {
      assert '"' !in s[1..];
      StringBodyUnterminated(s[1..]);
    } else if s != [] && |s| >= 2 {
      assert '"' !in s[2..];
      StringBodyUnterminated(s[2..]);
    }
  }

  lemma TokenizePanicsWithStep(s: string)
    requires |s| > 0 && Step(s).Panic?
    ensures Tokenize(s).Panic?
  {
  }

  /** A string without a closing quote panics. */
  lemma TokenizeUnterminatedString(t: string)
    requires '"' !in t
    ensures Tokenize("\"" + t).Panic?
  {
    var s := "\"" + t;
    assert s[0] == '"' && s[1..] == t;
    StringBodyUnterminated(t);
    assert Step(s).Panic?;
    TokenizePanicsWithStep(s);
  }

  /** An escape other than `\n`, `\r` and backslash-newline panics, in a
      string and in a char literal, and so does a backslash at end of input. */
  lemma TokenizeBadEscape(e: char, t: string)
    requires e != 'n' && e != 'r' && e != '\n'
    ensures Tokenize("\"\\" + [e] + t).Panic? && Tokenize("'\\" + [e] + t).Panic?
    ensures Tokenize("\"\\").Panic? && Tokenize("'\\").Panic?
  {
    var s1 := "\"\\" + [e] + t;
    assert s1[0] == '"' && s1[1..][0] == '\\' && s1[1..][1] == e;
    assert Step(s1).Panic?;
    TokenizePanicsWithStep(s1);
    var s2 := "'\\" + [e] + t;
    assert s2[0] == '\'' && s2[1..][0] == '\\' && s2[1..][1] == e;
    assert Step(s2).Panic?;
    TokenizePanicsWithStep(s2);
    assert Step("\"\\").Panic?;
    TokenizePanicsWithStep("\"\\");
    assert Step("'\\").Panic?;
    TokenizePanicsWithStep("'\\");
  }

  /** A char literal opened at end of input panics. */
  lemma TokenizeCharAtEnd()
    ensures Tokenize("'").Panic?
  {
    assert Step("'").Panic?;
    TokenizePanicsWithStep("'");
  }

  // ----- printing tokens back to text -----

  /** Text that lexes back to `t`, for the tokens `Printable` admits. */
  function Render(t: Token): string {
    match t
    case Comment(text) => text + "\n"
    case Ident(name) => name + " "
    case NumericLiteral(text) => text + " "
    case CharLiteral(c) => ['\'', c, '\'']
    case StringLiteral(text) => "\"" + EscapeText(text) + "\""
    case Dollar => "$"
    case Colon => ":"
    case Octothorp => "#"
    case AtSign => "@"
    case QMark => "?"
    case Square(open) => if open then "[" else "]"
    case Curly(open) => if open then "{" else "}"
  }

  /** The well-formed tokens that have source text: the escape table has no
      entry for a backslash, so no literal can contain one. */
  predicate Printable(t: Token) {
    WellFormed(t)
    && (t.StringLiteral? ==> '\\' !in t.text)
    && (t.CharLiteral? ==> t.c != '\\')
  }

  function Print(ts: seq<Token>): string
    decreases |ts|
  {
    if ts == [] then "" else Render(ts[0]) + Print(ts[1..])
  }

  lemma TokenizeRender(t: Token, rest: string)
    requires Printable(t)
    ensures Tokenize(Render(t) + rest) == Prepend([t], Tokenize(rest))
  {
    match t
    case Comment(text) =>
      TokenizeComment(text, rest);
    case Ident(name) =>
      assert Render(t) + rest == name + (" " + rest);
      TokenizeIdent(name, " " + rest);
      TokenizeSkipsWhitespace(' ', rest);
    case NumericLiteral(text) =>
      assert Render(t) + rest == text + (" " + rest);
      TokenizeNumber(text, " " + rest);
      TokenizeSkipsWhitespace(' ', rest);
    case CharLiteral(c) =>
      TokenizeChar(c, '\'', rest);
    case StringLiteral(text) =>
      TokenizeString(text, rest);
    case _ =>
      var c := Render(t)[0];
      assert Render(t) == [c] && (IsSigil(c) || IsBracket(c)) && SingleCharToken(c) == t;
      TokenizeSingleChar(c, rest);
  }

  /** Lexing the printed form of printable tokens gives the tokens back. */
  lemma {:induction false} PrintRoundTrip(ts: seq<Token>)
    requires forall i | 0 <= i < |ts| :: Printable(ts[i])
    ensures Tokenize(Print(ts)) == Ok(ts)
    decreases |ts|
  {
    if ts != [] {
      PrintRoundTrip(ts[1..]);
      TokenizeRender(ts[0], Print(ts[1..]));
      assert [ts[0]] + ts[1..] == ts;
    }
  }

  // ----- programs as written: tokens with any spacing -----

  /** A token as it stands in a program: its text, then the whitespace up
      to the next token. */
  datatype Laid = Laid(token: Token, gap: string)

  /** The text of a token with nothing after it; `Render` adds the space or
      line break that keeps it apart from whatever follows. */
  function Tight(t: Token): string {
    match t
    case Comment(text) => text
    case Ident(name) => name
    case NumericLiteral(text) => text
    case _ => Render(t)
  }

  /** Whether `t`, written tightly, still ends where it should when `after`
      follows: a run-on token must not be followed by a character it would
      take, and a comment runs to the end of its line. */
  predicate Fits(t: Token, after: string) {
    match t
    case Ident(_) => after == [] || !IsIdentChar(after[0])
    case NumericLiteral(_) => after == [] || !IsNumericChar(after[0])
    case Comment(_) => after == [] || after[0] == '\n'
    case _ => true
  }

  predicate IsGap(w: string) {
    forall i | 0 <= i < |w| :: IsWhitespace(w[i])
  }

  function Layout(ps: seq<Laid>): string {
    if ps == [] then "" else Tight(ps[0].token) + ps[0].gap + Layout(ps[1..])
  }

  function LaidTokens(ps: seq<Laid>): seq<Token> {
    if ps == [] then [] else [ps[0].token] + LaidTokens(ps[1..])
  }

  /** Every token printable, every gap whitespace, and every token fitting
      what follows it. */
  predicate WellLaid(ps: seq<Laid>) {
    ps == [] ||
    (Printable(ps[0].token) && IsGap(ps[0].gap)
     && Fits(ps[0].token, ps[0].gap + Layout(ps[1..])) && WellLaid(ps[1..]))
  }

  /** Whitespace between tokens yields nothing. */
  lemma {:induction false} TokenizeGap(w: string, f: string)
    requires IsGap(w)
    ensures Tokenize(w + f) == Tokenize(f)
    decreases |w|
  {
    if w == [] {
      assert w + f == f;
    } else {
      var c, more := w[0], w[1..];
      assert IsWhitespace(c) && IsGap(more);
      assert w + f == [c] + (more + f) by {
        assert w == [c] + more;
      }
      TokenizeSkipsWhitespace(c, more + f);
      TokenizeGap(more, f);
    }
  }

  /** A token written tightly lexes as itself when what follows fits it. */
  lemma TokenizeTight(t: Token, f: string)
    requires Printable(t) && Fits(t, f)
    ensures Tokenize(Tight(t) + f) == Prepend([t], Tokenize(f))
  {
    match t
    case Ident(name) =>
      TokenizeIdent(name, f);
    case NumericLiteral(text) =>
      TokenizeNumber(text, f);
    case Comment(text) =>
      if f == [] {
        TokenizeCommentAtEnd(text);
        assert text + f == text && Tokenize(f) == Ok([]) && [t] + [] == [t];
      } else {
        var more := f[1..];
        assert f == "\n" + more && text + f == text + "\n" + more;
        TokenizeCommentLine(text, more);
        TokenizeSkipsWhitespace('\n', more);
      }
    case _ =>
      TokenizeRender(t, f);
  }

  /** Any well-laid program lexes to its tokens: a printable token sequence
      survives any whitespace between tokens, and none where the tokens
      cannot run together. */
  lemma {:induction false} LayoutRoundTrip(ps: seq<Laid>)
    requires WellLaid(ps)
    ensures Tokenize(Layout(ps)) == Ok(LaidTokens(ps))
    decreases |ps|
  {
    if ps != [] {
      var t, f := ps[0].token, ps[0].gap + Layout(ps[1..]);
      LayoutRoundTrip(ps[1..]);
      TokenizeGap(ps[0].gap, Layout(ps[1..]));
      TokenizeTight(t, f);
      assert Layout(ps) == Tight(t) + f;
    }
  }

  /** A plain string followed by a `\n` escape reads as that string with a
      newline at its end. */
  lemma TokenizeLineString(x: string, rest: string)
    requires '"' !in x && '\\' !in x && '\n' !in x && '\r' !in x
    ensures Tokenize("\"" + x + "\\n\"" + rest) == Prepend([StringLiteral(x + "\n")], Tokenize(rest))
  {
    var body := x + "\n";
    EscapedLine(x);
    assert '"' !in body && '\\' !in body;
    assert "\"" + EscapeText(body) + "\"" + rest == "\"" + x + "\\n\"" + rest by {
      assert EscapeText(body) + "\"" == x + "\\n\"";
    }
    TokenizeStringAt("\"" + x + "\\n\"" + rest, body, rest);
  }

  lemma TokenizeStringAt(s: string, body: string, rest: string)
    requires '"' !in body && '\\' !in body
    requires s == "\"" + EscapeText(body) + "\"" + rest
    ensures Tokenize(s) == Prepend([StringLiteral(body)], Tokenize(rest))
  {
    TokenizeString(body, rest);
  }

  /** A plain line and its line break are written as the line and `\n`. */
  lemma EscapedLine(x: string)
    requires '\n' !in x && '\r' !in x
    ensures EscapeText(x + "\n") == x + "\\n"
  {
    EscapeTextPlain(x);
    EscapeTextAppend(x, "\n");
    assert EscapeText("\n") == EscapeOne('\n') + EscapeText([]);
  }

  // ----- the unit tests of src/tokenizer.rs -----

  /** `it_escape_chars_in_strings`: two strings, each ending in a `\n`
      escape, read one after the other whatever follows them. The test itself
      uses `x == y == "Hello world!"`. */
  lemma EscapeCharsInStrings(x: string, y: string, rest: string)
    requires '"' !in x && '\\' !in x && '\n' !in x && '\r' !in x
    requires '"' !in y && '\\' !in y && '\n' !in y && '\r' !in y
    ensures Tokenize(("\"" + x + "\\n\"") + ("\"" + y + "\\n\"") + rest)
         == Prepend([StringLiteral(x + "\n"), StringLiteral(y + "\n")], Tokenize(rest))
  {
    var one, two := "\"" + x + "\\n\"", "\"" + y + "\\n\"";
    TokenizeLineString(y, rest);
    TokenizeLineString(x, two + rest);
    assert one + two + rest == one + (two + rest);
    var t, u := StringLiteral(x + "\n"), StringLiteral(y + "\n");
    PrependTwice([t], [u], Tokenize(rest));
    assert [t] + [u] == [t, u];
  }

  /** `it_escape_chars_in_chars`: two char literals written `'\n'`. */
  lemma EscapeCharsInChars(rest: string)
    ensures Tokenize("'\\n''\\n'" + rest) == Prepend([CharLiteral('\n'), CharLiteral('\n')], Tokenize(rest))
  {
    var one := ['\'', '\\', 'n', '\''];
    var a := one + rest;
    TokenizeEscapedChar('n', '\'', rest);
    TokenizeEscapedChar('n', '\'', a);
    assert one + a == "'\\n''\\n'" + rest;
    PrependTwice([CharLiteral('\n')], [CharLiteral('\n')], Tokenize(rest));
    assert [CharLiteral('\n')] + [CharLiteral('\n')] == [CharLiteral('\n'), CharLiteral('\n')];
  }
}
